=== FILE: README.md ===
# data_cleansing in Dafny

A model of the core of the Ruby gem `data_cleansing`: a process-wide
registry of named cleaners, the `cleanse` declaration a class uses to attach
a cleaner to some of its attributes, the `cleanse_attributes!` engine that
runs those declarations over an object's attributes, and the built-in string
transforms of `Cleaners`.

Modules:

- `Values` (values.dfy): attribute values (`nil`, String, Integer, any other
  object), `Option`, cleaner functions `Value -> Value`, and names given as
  a Symbol or a String with their `to_sym` normalisation.
- `Registry` (registry.dfy): `@@global_cleaners` as the class
  `CleanerRegistry` holding a `map<string, CleanerFn>`, with
  `RegisterCleaner` (a method updating the map) and `Cleaner` (a lookup).
- `Cleanse` (cleanse.dfy): `CleanerStruct` as `Rule`; `cleanse` as the
  specification `Declare` and the class `RuleTable` whose method `Cleanse`
  appends to `@cleaners`; the specification of `cleanse_attributes!` as
  pure functions (`Expand` for the `:all` expansion, `ReadRaw`, `Resolve`,
  `CleanOne`/`CleanAll` for the inner loop, `Continue`/`Run` for the outer
  loop). `Run` also returns the sequence of setter calls made and the
  rules as stored afterwards (the source deletes `:except` from them).
- `CleanseEngine` (cleanse.dfy): the class `Host`, an object with an
  attribute map, whose method `CleanseAttributes` is the nested loop of
  `cleanse_attributes!`; each of its methods is proved to produce exactly
  what the specification functions say.
- `CleanseProperties` (cleanse_properties.dfy): what a pass guarantees,
  proved over `Run`: declaration order, later rules seeing earlier output,
  the nil skip, setter calls only for changed values, attributes no rule
  names left alone, failure without rollback, and the `:all`/`:except`
  expansion.
- `Text` and `Cleaners` (text.dfy, cleaners.dfy): ASCII character classes,
  a generic character filter `Keep`, and the transforms `Strip`, `Upcase`,
  `Downcase`, `RemoveNonWord`, `RemoveNonPrintable`, `ReplaceHtmlMarkup`,
  `CompressWhitespace`, `DigitsOnly` and `StringToInteger`, each a total
  function on values that passes non-Strings through.

The failures raised by the engine's own code are modelled as values of
`Cleanse.Failure`: no rules declared (`cleaners` is still nil, so
`nil.each` fails), an `:except` that is not an Array, an attribute with no
reader on a plain object, a cleaner that is neither a Proc nor a name, and
a name with no registered cleaner. An exception raised inside a cleaner is
not among them (see "Left out"). A failure stops the pass; nothing written
before it is rolled back.

Behaviour of the gem's code that the model keeps as written:

- Rules are collected from the class's own `@cleaners` only; there is no
  walk over ancestor classes, no after-cleanse hooks, no change records, no
  masked attributes and no standalone resolver.
- A rule has one cleaner, not a chain. An Array given as `:cleaner` fails
  (`ArrayOfCleanersRaises`); a chain has to be written as consecutive rules.
- Rules are not immutable: expanding `:all` deletes `:except` from the
  stored params, so a second `cleanse_attributes!` on the same class no
  longer excludes those names (`ExceptForgottenAfterFirstPass`).
- `cleanse_attributes!` on a class that never declared a rule raises
  instead of doing nothing.
- `String#strip` removes NUL as well as `\s` at both ends (Ruby 2.6 and
  later).

## Model

| member | source | states |
|---|---|---|
| Registry.Lookup | lib/data_cleansing/data_cleansing.rb:20-22 | the lookup finds an entry exactly when `name.to_sym` is a key, and then gives the stored block; an unregistered name gives nil |
| Registry.Registered | lib/data_cleansing/data_cleansing.rb:8-17 | without a block the table is unchanged; with one the keys are the old keys plus `name.to_sym` |
| Registry.CleanerRegistry.constructor | lib/data_cleansing/data_cleansing.rb:4 | the registry starts empty |
| Registry.CleanerRegistry.RegisterCleaner | lib/data_cleansing/data_cleansing.rb:8-17 | the new map is `Registered(old map, name, block)`; with a block, `Cleaner(name)` then returns it; every name with a different symbol looks up as before |
| Registry.CleanerRegistry.Cleaner | lib/data_cleansing/data_cleansing.rb:20-22 | `cleaner(name)` is the plain lookup of `name.to_sym` in the current map |
| Registry.LookupAfterRegister | lib/data_cleansing/data_cleansing.rb:8-22 | after registering a block under a name, looking that name up returns the block |
| Registry.LastWriterWins | lib/data_cleansing/data_cleansing.rb:7-10 | registering twice under one name equals registering only the later block |
| Registry.RegisterIsLocal | lib/data_cleansing/data_cleansing.rb:10 | registering one name leaves the lookup of every name with a different symbol unchanged |
| Registry.SymbolAndStringAgree | lib/data_cleansing/data_cleansing.rb:8-22 | the Symbol and String forms of a name reach the same entry, and a blockless registration under the String form changes nothing |
| Cleanse.Declare | lib/data_cleansing/cleanse.rb:8-13 | `cleanse` raises the missing-cleaner error exactly when the last argument is not a plain Hash or has no truthy `:cleaner`; otherwise the rule keeps the attributes as given, the cleaner, and all other options, without `:cleaner` |
| Cleanse.RuleTable.constructor | lib/data_cleansing/cleanse.rb:16-18 | a class starts with `cleaners` nil |
| Cleanse.RuleTable.Cleanse | lib/data_cleansing/cleanse.rb:8-14 | on success exactly one rule is appended after the earlier ones (creating the list if it was nil); on the error the list is unchanged |
| Cleanse.Without | lib/data_cleansing/cleanse.rb:34-40 | `xs - ys` keeps exactly the elements of `xs` not in `ys`, and is no longer than `xs` |
| CleanseProperties.WithoutKeepsOrder | lib/data_cleansing/cleanse.rb:34-40 | `xs - ys` keeps the elements of `xs` in their order, so the targets are visited in the host's attribute order |
| Cleanse.Rename | lib/data_cleansing/cleanse.rb:44-51 | after the encrypted-attribute pass every name was already listed or is the clear name of some pair |
| Cleanse.Expand | lib/data_cleansing/cleanse.rb:29-52 | without `:all` on a host exposing `attributes` the list and params are used as written; with it the params lose `:except`; the expansion fails, with "not an Array" and no targets, exactly when `:all` applies and `:except` is present but neither nil/false nor an Array |
| Cleanse.ExpandTargets | lib/data_cleansing/cleanse.rb:29-52 | the step-by-step list editing (`-=`, `delete`, `<<`) yields the targets, params and failure of `Expand` |
| Cleanse.ReadRaw | lib/data_cleansing/cleanse.rb:57-61 | the raw value is the stored value; an unknown name reads nil through `read_attribute_before_type_cast` and fails with the plain reader |
| Cleanse.Resolve | lib/data_cleansing/cleanse.rb:65-73 | an inline Proc is called as given; a name resolves exactly when the registry has it, to the stored block, and otherwise fails with "no cleaner defined" for that name; any other cleaner fails as "not a cleaner" |
| Cleanse.CleanOne | lib/data_cleansing/cleanse.rb:57-76 | a nil raw value is skipped; at most one setter call is made, to this attribute, with a value different from the one read, and it is the only change; with no setter call nothing changes; a failure changes nothing |
| Cleanse.CleanAll | lib/data_cleansing/cleanse.rb:54-78 | no attribute is added or removed; at most one setter call per listed attribute; with no setter call nothing changes |
| Cleanse.ApplyRule | lib/data_cleansing/cleanse.rb:25-78 | the stored rule keeps its cleaner and attribute list; a wildcard rule loses `:except` and any other rule is stored as it was; a malformed `:except` raises before any attribute is read; no attribute is added or removed |
| Cleanse.Continue | lib/data_cleansing/cleanse.rb:24-79 | each step of the outer loop stores exactly one rule |
| Cleanse.Run | lib/data_cleansing/cleanse.rb:24-79 | the pass stores exactly one rule per declared rule |
| CleanseEngine.CleanAllStopsAtFailure | lib/data_cleansing/cleanse.rb:54-78 | once an attribute raised, the remaining attributes of the rule are not visited |
| CleanseEngine.RunStopsAtFailure | lib/data_cleansing/cleanse.rb:24-79 | once a rule raised, later rules neither run nor change, and earlier writes stay |
| CleanseEngine.Host.CleanAttribute | lib/data_cleansing/cleanse.rb:54-76 | reading, the nil skip, resolution, the call and the changed-only setter give exactly `CleanOne` |
| CleanseEngine.Host.CleanTargets | lib/data_cleansing/cleanse.rb:54-78 | the inner loop gives exactly `CleanAll` over the rule's targets in order |
| CleanseEngine.Host.CleanRule | lib/data_cleansing/cleanse.rb:25-78 | one outer iteration gives exactly `ApplyRule`: the stored rule and the attributes, writes and failure |
| CleanseEngine.Host.CleanseAttributes | lib/data_cleansing/cleanse.rb:23-80 | with no rules declared it raises and changes nothing; otherwise the new attributes, the stored rules and the failure are those of `Run` |
| CleanseProperties.OnlyChangesEach | lib/data_cleansing/cleanse.rb:75 | each setter call targets an existing attribute and changes the value it replaces |
| CleanseProperties.CleanOneAccounts | lib/data_cleansing/cleanse.rb:63-76 | one attribute's result is the replay of its setter calls, which change values and name only that attribute |
| CleanseProperties.CleanAllAccounts | lib/data_cleansing/cleanse.rb:54-78 | a rule's result is the replay of its setter calls, each changing a value and naming one of its targets |
| CleanseProperties.RunAccounts | lib/data_cleansing/cleanse.rb:23-80 | the attributes after a pass are the replay of its setter calls, each of which changes a value; no attribute is added or removed |
| CleanseProperties.RunTargeted | lib/data_cleansing/cleanse.rb:54-75 | every setter call names an attribute some rule targets after `:all` expansion |
| CleanseProperties.UntargetedUntouched | lib/data_cleansing/cleanse.rb:54-75 | an attribute no rule targets is never written and keeps its value |
| CleanseProperties.CleanAllKeepsNil | lib/data_cleansing/cleanse.rb:63-64 | a nil attribute stays nil and is not written by a rule |
| CleanseProperties.ContinueKeepsNil | lib/data_cleansing/cleanse.rb:24-78 | one outer iteration keeps a nil attribute nil and does not write it |
| CleanseProperties.NilIsSkipped | lib/data_cleansing/cleanse.rb:63-64 | a nil attribute stays nil and is never written during a whole pass |
| CleanseProperties.CleanAllAllNil | lib/data_cleansing/cleanse.rb:57-64 | with every raw value nil a rule does nothing and raises nothing |
| CleanseProperties.AllNilNeverResolves | lib/data_cleansing/cleanse.rb:57-73 | with every raw value nil no cleaner is resolved, nothing is written, and only a malformed `:except` can raise |
| CleanseProperties.RunSnoc | lib/data_cleansing/cleanse.rb:24 | a rule declared last runs after all the earlier ones |
| CleanseProperties.RunConcat | lib/data_cleansing/cleanse.rb:24 | running `r1 + r2` is running `r1` and then `r2` on what `r1` left |
| CleanseProperties.CleanSingle | lib/data_cleansing/cleanse.rb:65-75 | for a rule listing only that attribute, a non-nil attribute with a resolvable cleaner is set to the cleaner's result |
| CleanseProperties.CleanOneApplies | lib/data_cleansing/cleanse.rb:57-76 | a readable attribute with a resolvable cleaner `f` raises nothing and becomes `f` of its raw value unless that is nil; nothing else changes |
| CleanseProperties.CleanAllApplies | lib/data_cleansing/cleanse.rb:54-78 | a rule over distinct readable attributes with a resolvable cleaner `f` raises nothing, keeps the key set, sets every listed non-nil attribute to `f` of its raw value, and leaves every other attribute as it was |
| CleanseProperties.RuleApplies | lib/data_cleansing/cleanse.rb:24-78 | the same for a whole rule, listed or `:all`, after expansion: each target holds `f` of its raw value unless that is nil, and the other attributes are unchanged |
| CleanseProperties.CleanSingleNil | lib/data_cleansing/cleanse.rb:63-64 | a nil attribute is left as it is, whatever the cleaner |
| CleanseProperties.ContinueListed | lib/data_cleansing/cleanse.rb:25-54 | an outer iteration with a rule that lists its attributes runs the inner loop over that list and stores the rule unchanged |
| CleanseProperties.LaterRuleSeesEarlierOutput | lib/data_cleansing/cleanse.rb:24-75 | with two rules on one attribute the second cleaner receives the first one's output, unless that is nil |
| CleanseProperties.CleanOneUnresolved | lib/data_cleansing/cleanse.rb:57-73 | with an unresolvable cleaner one attribute is not written; it raises exactly when its raw value is not nil, with the resolution error when raw values are read before type cast |
| CleanseProperties.CleanAllUnresolvedInert | lib/data_cleansing/cleanse.rb:54-78 | with an unresolvable cleaner a rule changes nothing and makes no setter call, whatever its attributes |
| CleanseProperties.CleanAllUnresolved | lib/data_cleansing/cleanse.rb:54-78 | with an unresolvable cleaner, over any attribute list, the rule changes nothing, makes no setter call, and raises exactly when some listed attribute's raw value is not nil |
| CleanseProperties.UnresolvedCleanerRaises | lib/data_cleansing/cleanse.rb:24-78 | a rule with an unresolvable cleaner, over any attribute list that expands, writes nothing, changes nothing, and raises exactly when one of its targets has a non-nil raw value, then with the resolution error |
| CleanseProperties.ArrayOfCleanersRaises | lib/data_cleansing/cleanse.rb:65-68 | any Array of cleaner names is not a chain: over any attribute list the rule writes nothing and raises "not a cleaner" exactly when a target has a non-nil raw value |
| CleanseProperties.EarlierWritesSurviveFailure | lib/data_cleansing/cleanse.rb:68-75 | after any earlier rules that succeed, a rule with an unresolvable cleaner that meets a non-nil target raises, and the attributes and setter calls are exactly those the earlier rules left: nothing is rolled back |
| CleanseProperties.CleanedThenRaised | lib/data_cleansing/cleanse.rb:68-75 | for instance, an attribute cleaned by one rule keeps its cleaned value when the next rule raises |
| CleanseProperties.RenameKeeps | lib/data_cleansing/cleanse.rb:44-51 | a listed name that is no encrypted name survives the encrypted-attribute pass |
| CleanseProperties.RenameReplaces | lib/data_cleansing/cleanse.rb:44-51 | when encrypted names are distinct and none is a clear name, a listed encrypted name is replaced by its clear name: the clear name is in the result and the encrypted one is not |
| CleanseProperties.RenameOnlyListed | lib/data_cleansing/cleanse.rb:45-49 | a name the encrypted-attribute pass adds is the clear name of a pair whose encrypted name was listed (with distinct encrypted names, none of them a clear name) |
| CleanseProperties.WildcardTargets | lib/data_cleansing/cleanse.rb:31-51 | `:all` targets only host attributes neither excepted nor serialized, or clear names; any other target is the clear name of an encrypted column that is a host attribute, neither excepted nor serialized (with distinct encrypted names, none of them a clear name); and every host attribute neither excepted, serialized nor encrypted is targeted |
| CleanseProperties.WildcardRenamesEncrypted | lib/data_cleansing/cleanse.rb:31-51 | under `:all`, an encrypted column that is neither excepted nor serialized is cleansed under its clear name and not under its own (with distinct encrypted names, none of them a clear name) |
| CleanseProperties.ExceptedIsNotTargeted | lib/data_cleansing/cleanse.rb:33-35 | an excepted name (that is no clear name) is not targeted by the wildcard rule |
| CleanseProperties.ExceptedEncryptedNotTargeted | lib/data_cleansing/cleanse.rb:33-49 | excepting an encrypted column under `:all` leaves both it and its clear name uncleansed, when the clear name is no host attribute and no other pair brings it in |
| CleanseProperties.RunStoresExpandedParams | lib/data_cleansing/cleanse.rb:25-33 | after a pass every rule is stored with the params its expansion left |
| CleanseProperties.ExceptForgottenAfterFirstPass | lib/data_cleansing/cleanse.rb:33 | after a pass a stored wildcard rule has no `:except`, so the next expansion covers all host attributes again |
| Text.Keep | lib/data_cleansing/cleaners.rb:40 | a deleting `gsub` keeps only characters of the class and never lengthens the string |
| Text.KeepCounts | lib/data_cleansing/cleaners.rb:40 | each kept character occurs as often as in the input; no other character occurs |
| Text.KeepIsSubsequence | lib/data_cleansing/cleaners.rb:40 | what a deleting `gsub` returns is a subsequence of its input |
| Text.KeepIdempotent | lib/data_cleansing/cleaners.rb:40 | filtering twice by one class is filtering once |
| Cleaners.StripText | lib/data_cleansing/cleaners.rb:8 | `strip` never lengthens the text and leaves no whitespace or NUL at either end |
| Cleaners.Strip | lib/data_cleansing/cleaners.rb:5-8 | non-Strings pass through; the result has no strip character at either end and is a contiguous middle of the input whose cut-off ends are whitespace or NUL |
| Cleaners.StripIsMiddle | lib/data_cleansing/cleaners.rb:8 | what `strip` keeps is `s[i..j]` with only whitespace or NUL before `i` and from `j` on |
| Cleaners.StripIdempotent | lib/data_cleansing/cleaners.rb:5-8 | stripping twice is stripping once |
| Cleaners.UpcaseText | lib/data_cleansing/cleaners.rb:18 | same length, each character mapped on its own |
| Cleaners.DowncaseText | lib/data_cleansing/cleaners.rb:28 | same length, each character mapped on its own |
| Cleaners.Upcase | lib/data_cleansing/cleaners.rb:15-19 | non-Strings pass through; same length, no lower-case letter left, each lower-case letter becomes its capital, every other character kept |
| Cleaners.Downcase | lib/data_cleansing/cleaners.rb:25-29 | non-Strings pass through; same length, no capital left, each capital becomes its lower-case letter, every other character kept |
| Cleaners.UpcaseIdempotent | lib/data_cleansing/cleaners.rb:15-19 | upcasing twice is upcasing once |
| Cleaners.DowncaseIdempotent | lib/data_cleansing/cleaners.rb:25-29 | downcasing twice is downcasing once |
| Cleaners.RemoveNonWord | lib/data_cleansing/cleaners.rb:34-41 | non-Strings pass through; only word characters remain, as a subsequence of the input holding each word character as often as the input |
| Cleaners.RemoveNonPrintable | lib/data_cleansing/cleaners.rb:46-53 | non-Strings pass through; only printable characters remain, as a subsequence of the input holding each printable character as often as the input |
| Cleaners.RemoveNonWordKeepsWords | lib/data_cleansing/cleaners.rb:34-41 | a string of word characters only is left as it is |
| Cleaners.RemoveNonWordIdempotent | lib/data_cleansing/cleaners.rb:34-41 | removing non-word characters twice is doing it once |
| Cleaners.RemoveNonPrintableIdempotent | lib/data_cleansing/cleaners.rb:46-53 | removing non-printable characters twice is doing it once |
| Cleaners.DigitsOnly | lib/data_cleansing/cleaners.rb:118-126 | non-Strings pass through; nil exactly when the input has no digit; otherwise only digits, a subsequence of the input holding each digit as often as the input |
| Cleaners.LeadingDigits | lib/data_cleansing/cleaners.rb:140 | the longest prefix made of digits: a prefix, all digits, followed by a non-digit or the end |
| Cleaners.LeadingDigitsStops | lib/data_cleansing/cleaners.rb:140 | digits followed by a non-digit or the end: the leading digits are exactly those digits |
| Cleaners.ToI | lib/data_cleansing/cleaners.rb:140 | `to_i` of text that does not start with a digit is 0 |
| Cleaners.ToIOfDecimal | lib/data_cleansing/cleaners.rb:140 | `to_i` of a number's decimal text followed by a non-digit or the end is that number |
| Cleaners.StringToInteger | lib/data_cleansing/cleaners.rb:132-141 | non-Strings pass through; nil exactly when the input has no digit or dot; otherwise a non-negative Integer, the leading-digits value of what is left once every character outside `[0-9.]` is deleted |
| Cleaners.StringToIntegerIgnoresJunk | lib/data_cleansing/cleaners.rb:133-139 | deleting one character outside `[0-9.]` from anywhere in the input does not change the result |
| Cleaners.StringToIntegerFiltered | lib/data_cleansing/cleaners.rb:139-140 | the input and what the `NUMERIC` filter leaves of it convert to the same result |
| Cleaners.StringToIntegerRoundTrip | lib/data_cleansing/cleaners.rb:135-141 | the decimal text of any natural number converts back to that number |
| Cleaners.StringToIntegerTruncates | lib/data_cleansing/cleaners.rb:135-141 | for any natural number `n` and any text `t`, the string `n` + "." + `t` gives `n`: everything from the dot on is ignored |
| Cleaners.CompressText | lib/data_cleansing/cleaners.rb:106-111 | empty exactly when the input is; starts with whitespace exactly when the input does |
| Cleaners.CompressShape | lib/data_cleansing/cleaners.rb:106-111 | every whitespace character of the result is a space, and no two are adjacent |
| Cleaners.CompressKeepsText | lib/data_cleansing/cleaners.rb:111 | the non-whitespace characters are those of the input, in order |
| Cleaners.CompressRunTail | lib/data_cleansing/cleaners.rb:106-111 | a whitespace run at the start, before non-whitespace or the end, becomes one space |
| Cleaners.CompressAppend | lib/data_cleansing/cleaners.rb:106-111 | text ending in non-whitespace is compressed independently of what follows it |
| Cleaners.CompressRun | lib/data_cleansing/cleaners.rb:106-111 | each maximal whitespace run becomes one space in place: for `a` ending and `b` starting with non-whitespace (or empty), `a` + run + `b` compresses to the compressed `a`, a space, and the compressed `b` |
| Cleaners.CompressFixed | lib/data_cleansing/cleaners.rb:111 | text whose whitespace is single spaces only is left unchanged |
| Cleaners.CompressWhitespace | lib/data_cleansing/cleaners.rb:105-112 | non-Strings pass through; non-whitespace kept in order, every whitespace character a single space, no two adjacent; each whitespace run is replaced in place (`Cleaners.CompressRun`) |
| Cleaners.CompressWhitespaceIdempotent | lib/data_cleansing/cleaners.rb:105-112 | compressing twice is compressing once |
| Cleaners.EntityAt | lib/data_cleansing/cleaners.rb:59 | finds the first of the six entities, in the pattern's order, that the text starts with, in any case; none earlier in that order matches; or it reports that none matches |
| Cleaners.UnescapeText | lib/data_cleansing/cleaners.rb:64-81 | replacing entities never lengthens the text |
| Cleaners.ReplaceHtmlMarkup | lib/data_cleansing/cleaners.rb:61-82 | non-Strings pass through; the result is never longer than the input |
| Cleaners.UnescapeWithoutEntities | lib/data_cleansing/cleaners.rb:59-81 | text in which none of the six entities starts anywhere (such as `&;` or `&blah;`) is left untouched |
| Cleaners.ReplacesEntity | lib/data_cleansing/cleaners.rb:59-77 | any of the six entities, in any mixture of cases, becomes its character and the scan continues right after it |
| Cleaners.KeepsNonEntity | lib/data_cleansing/cleaners.rb:59-64 | a first character at which no entity starts is copied and the scan moves on to the next character |
| Cleaners.UnescapeAfterText | lib/data_cleansing/cleaners.rb:59-64 | a stretch in front in which no entity starts is copied as it is, followed by the unescaped rest |
| Cleaners.ReplacesEntityAfterText | lib/data_cleansing/cleaners.rb:59-66 | an entity preceded by such a stretch is replaced in place: the text in front is kept, the entity becomes its character, and the rest is unescaped after it |
| Cleaners.NoEntityWithoutAmpersand | lib/data_cleansing/cleaners.rb:59 | every entity begins with `&`, so none starts at any other character |
| Cleaners.UnescapeWithoutAmpersand | lib/data_cleansing/cleaners.rb:59-64 | text without `&` comes back unchanged |
| Cleaners.ReplacesLoneEntity | test/cleaners_test.rb:75-79 | one entity amid text without `&` (as in `Jim &amp; Candi` becoming `Jim & Candi`) is replaced by its character and the text on both sides is kept |

## Left out

- `EscapeURI` and `UnescapeURI` (lib/data_cleansing/cleaners.rb:86-102): they wrap Ruby's `CGI` library, which is not part of this model.
- `StringToFloat` (lib/data_cleansing/cleaners.rb:147-157): its result is a floating-point number.
- `EndOfDay` (lib/data_cleansing/cleaners.rb:165-178): it relies on `Time.parse` and ActiveSupport's time arithmetic.
- The registrations of the built-in transforms (lib/data_cleansing/cleaners.rb:11 and the like) pass the module as a positional argument, which `register_cleaner(name, &block)` does not accept; the model has no built-in entries in the registry, and a rule uses the transforms by registering them or passing them inline.
- `DataCleansing.clean`, used by a test, does not exist in the library and is not modelled.
- Unicode: character classes (`\s`, `\W`, `[[:print:]]`) and case mapping are ASCII only.
- In-place mutation and aliasing: the bang methods (`strip!`, `gsub!`, `upcase!`) mutate the raw value object; the model treats strings as immutable values and cleaners as functions, so the setter is called whenever the returned value differs from the value read. In Ruby a cleaner that mutates its argument in place returns the same object, so the setter is skipped while the attribute's object has still changed.
- Cleaner arguments: `call(value, params)` is modelled as a function of the value alone; Proc-versus-lambda arity rules are not modelled.
- `ThreadSafe::Array` and `ThreadSafe::Hash`: modelled as a plain `seq` and `map`; concurrency is not modelled.
- The host object: a single map of raw values stands in for `read_attribute_before_type_cast`, the readers and the setters; `defined?(ActiveRecord)`, `respond_to?` checks, `serialized_attributes` and `encrypted_attributes` are inputs (`Schema`). Attribute names are strings, so the Symbol/String distinction of attribute names and of `:except` elements is not modelled.
- A host object without `read_attribute_before_type_cast` whose reader raises for a listed name is modelled as the failure `NoSuchAttribute`; readers that compute values are not modelled.
- The `else` branch of `ReplaceHTMLMarkup` (lib/data_cleansing/cleaners.rb:78-79) cannot be reached, because the pattern matches only the six entities, and is not modelled.
- `Cleanse.Continue`: its own contract states only that one rule is stored per step; what a step does is stated by `CleanseProperties.ContinueKeepsNil`, `CleanseProperties.ContinueListed` and `CleanseEngine.RunStopsAtFailure`.
- `Cleanse.Run`: its own contract states only the length of the stored rule list; what a pass does is stated by `CleanseEngine.Host.CleanseAttributes` and the lemmas of `CleanseProperties`.
- Exceptions raised inside a cleaner (lib/data_cleansing/cleanse.rb:65-69): cleaners are total functions, so a cleaner that raises, such as the Proc of test/ruby_test.rb:21 calling `strip!` on a non-String, is not modelled. In Ruby it stops the pass like `UnknownCleaner` does, keeping earlier writes.
- `CleanseProperties.RenameReplaces`, `CleanseProperties.WildcardRenamesEncrypted`: they require distinct encrypted column names, none of which is also a clear name. Without that, the order of `encrypted_attributes` decides which clear name survives.
- `CleanseProperties.RenameOnlyListed`, `CleanseProperties.ExceptedEncryptedNotTargeted`: they need the same condition on the encrypted columns, and the last ensures of `CleanseProperties.WildcardTargets` assumes it too.
- `CleanseProperties.CleanAllApplies`, `CleanseProperties.RuleApplies`: they require distinct targets that can all be read. A name listed twice is cleaned twice (its value becomes `f(f(v))`). An unreadable name raises, which `CleanseEngine.CleanAllStopsAtFailure` covers.
- `Cleaners.ReplaceHtmlMarkup`: its own contract states only the passthrough and a length bound; the scan itself is stated by `Cleaners.KeepsNonEntity` (a character that starts no entity is copied), `Cleaners.ReplacesEntity` (an entity is replaced), their combination `Cleaners.UnescapeAfterText` and `Cleaners.ReplacesEntityAfterText` (an entity after ordinary text), and `Cleaners.UnescapeWithoutEntities`.
- `Cleaners.StringToInteger`: its own contract ties the value to `ToI` of the filtered text; what `ToI` (`String#to_i`) yields is stated by `Cleaners.StringToIntegerRoundTrip` and, for any number followed by a dot and any text, `Cleaners.StringToIntegerTruncates`, not for every digit string.
- The Rails integration (lib/data_cleansing/railtie.rb), the requires and autoload of lib/data_cleansing.rb, and logging are not modelled.

=== FILE: cleaners.dfy ===
/** The built-in transforms of lib/data_cleansing/cleaners.rb, on ASCII text.
    Each transform returns a value that is not a String unchanged. */
module Cleaners {
  import opened Values
  import opened Text

  // ---------------------------------------------------------------- Strip

  /** The characters `String#strip` removes: NUL and `\s`. */
  predicate IsStripChar(c: char) {
    c == '\0' || IsSpace(c)
  }

  /** `lstrip`: the suffix left after dropping leading strip characters. */
  function TrimStart(s: string): (r: string)
    ensures |r| <= |s| && r == s[|s| - |r|..]
    ensures forall k :: 0 <= k < |s| - |r| ==> IsStripChar(s[k])
    ensures r != [] ==> !IsStripChar(r[0])
  {
    if s != [] && IsStripChar(s[0]) then TrimStart(s[1..]) else s
  }

  /** `rstrip`: the prefix left after dropping trailing strip characters. */
  function TrimEnd(s: string): (r: string)
    ensures |r| <= |s| && r == s[..|r|]
    ensures forall k :: |r| <= k < |s| ==> IsStripChar(s[k])
    ensures r != [] ==> !IsStripChar(r[|r| - 1])
  {
    if s != [] && IsStripChar(s[|s| - 1]) then TrimEnd(s[..|s| - 1]) else s
  }

  /** `String#strip` on text: shorter or equal, with no strip character left at either end. */
  function StripText(s: string): (r: string)
    ensures |r| <= |s|
    ensures r != [] ==> !IsStripChar(r[0]) && !IsStripChar(r[|r| - 1])
  {
    var t := TrimStart(s);
    var r := TrimEnd(t);
    assert r != [] ==> r[0] == t[0];
    r
  }

  /** The cut-off ends of `s` around `s[i..j]` are strip characters only. */
  predicate StripEnds(s: string, i: nat, j: nat)
    requires i <= j <= |s|
  {
    (forall k :: 0 <= k < i ==> IsStripChar(s[k])) &&
    (forall k :: j <= k < |s| ==> IsStripChar(s[k]))
  }

  /** A prefix `u` of a suffix `t` of `s`, with only strip characters cut
      off on either side, is a middle part of `s` in the sense of `StripEnds`. */
  lemma MiddleOf(s: string, t: string, u: string)
    requires |t| <= |s| && t == s[|s| - |t|..]
    requires forall k :: 0 <= k < |s| - |t| ==> IsStripChar(s[k])
    requires |u| <= |t| && u == t[..|u|]
    requires forall k :: |u| <= k < |t| ==> IsStripChar(t[k])
    ensures exists i: nat, j: nat | i <= j <= |s| :: u == s[i..j] && StripEnds(s, i, j)
  {
    var i := |s| - |t|;
    var j := i + |u|;
    forall k | j <= k < |s| ensures IsStripChar(s[k]) {
      assert s[k] == t[k - i];
    }
    assert u == s[i..j];
    assert StripEnds(s, i, j);
  }

  /** What `StripText` keeps is a contiguous middle part of its input whose
      cut-off ends are whitespace only. */
  lemma StripIsMiddle(s: string)
    ensures exists i: nat, j: nat | i <= j <= |s| :: StripText(s) == s[i..j] && StripEnds(s, i, j)
  {
    MiddleOf(s, TrimStart(s), TrimEnd(TrimStart(s)));
  }

  /** `Cleaners::Strip`: no leading or trailing whitespace is left, and what is
      left is the contiguous middle of the input, whose cut-off ends were
      whitespace only. */
  function Strip(v: Value): (r: Value)
    ensures !v.VStr? ==> r == v
    ensures v.VStr? ==> r.VStr? && (r.s != [] ==> !IsStripChar(r.s[0]) && !IsStripChar(r.s[|r.s| - 1]))
    ensures v.VStr? ==> exists i: nat, j: nat | i <= j <= |v.s| :: r.s == v.s[i..j] && StripEnds(v.s, i, j)
  {
    if v.VStr? then
      StripIsMiddle(v.s);
      VStr(StripText(v.s))
    else v
  }

  /** Stripping twice is stripping once. */
  lemma StripIdempotent(v: Value)
    ensures Strip(Strip(v)) == Strip(v)
  {
    if v.VStr? {
      var r := StripText(v.s);
      assert TrimStart(r) == r;
      assert TrimEnd(r) == r;
    }
  }

  // ---------------------------------------------------------------- Upcase / Downcase

  function UpChar(c: char): (u: char)
  {
    if IsLower(c) then (c as int - 32) as char else c
  }

  function DownChar(c: char): (d: char)
  {
    if IsUpper(c) then (c as int + 32) as char else c
  }

  /** `String#upcase` on ASCII, character by character. */
  function UpcaseText(s: string): (r: string)
    ensures |r| == |s|
    ensures forall i :: 0 <= i < |s| ==> r[i] == UpChar(s[i])
  {
    if s == [] then [] else [UpChar(s[0])] + UpcaseText(s[1..])
  }

  /** `String#downcase` on ASCII, character by character. */
  function DowncaseText(s: string): (r: string)
    ensures |r| == |s|
    ensures forall i :: 0 <= i < |s| ==> r[i] == DownChar(s[i])
  {
    if s == [] then [] else [DownChar(s[0])] + DowncaseText(s[1..])
  }

  /** `Cleaners::Upcase`: same length, no lower-case letter left, each
      lower-case letter replaced by its capital, every other character kept. */
  function Upcase(v: Value): (r: Value)
    ensures !v.VStr? ==> r == v
    ensures v.VStr? ==> r.VStr? && |r.s| == |v.s|
    ensures v.VStr? ==> forall i :: 0 <= i < |v.s| ==>
              !IsLower(r.s[i]) &&
              (IsLower(v.s[i]) ==> IsUpper(r.s[i]) && r.s[i] as int == v.s[i] as int - 32) &&
              (!IsLower(v.s[i]) ==> r.s[i] == v.s[i])
  {
    if v.VStr? then VStr(UpcaseText(v.s)) else v
  }

  /** `Cleaners::Downcase`: the mirror image of Upcase. */
  function Downcase(v: Value): (r: Value)
    ensures !v.VStr? ==> r == v
    ensures v.VStr? ==> r.VStr? && |r.s| == |v.s|
    ensures v.VStr? ==> forall i :: 0 <= i < |v.s| ==>
              !IsUpper(r.s[i]) &&
              (IsUpper(v.s[i]) ==> IsLower(r.s[i]) && r.s[i] as int == v.s[i] as int + 32) &&
              (!IsUpper(v.s[i]) ==> r.s[i] == v.s[i])
  {
    if v.VStr? then VStr(DowncaseText(v.s)) else v
  }

  lemma UpcaseIdempotent(v: Value)
    ensures Upcase(Upcase(v)) == Upcase(v)
  {
    if v.VStr? {
      var r := Upcase(v).s;
      assert UpcaseText(r) == r;
    }
  }

  lemma DowncaseIdempotent(v: Value)
    ensures Downcase(Downcase(v)) == Downcase(v)
  {
    if v.VStr? {
      var r := Downcase(v).s;
      assert DowncaseText(r) == r;
    }
  }

  // ---------------------------------------------------------------- character filters

  /** `Cleaners::RemoveNonWord`: exactly the word characters of the input,
      each as often as in the input, in their original order. */
  function RemoveNonWord(v: Value): (r: Value)
    ensures !v.VStr? ==> r == v
    ensures v.VStr? ==> r.VStr? && (forall i :: 0 <= i < |r.s| ==> IsWordChar(r.s[i]))
    ensures v.VStr? ==> IsSubsequence(r.s, v.s)
    ensures v.VStr? ==> forall c :: IsWordChar(c) ==> multiset(r.s)[c] == multiset(v.s)[c]
  {
    if v.VStr? then
      KeepIsSubsequence(v.s, IsWordChar);
      KeepCounts(v.s, IsWordChar);
      VStr(Keep(v.s, IsWordChar))
    else v
  }

  /** `Cleaners::RemoveNonPrintable`: exactly the printable characters of the
      input, each as often as in the input, in their original order. */
  function RemoveNonPrintable(v: Value): (r: Value)
    ensures !v.VStr? ==> r == v
    ensures v.VStr? ==> r.VStr? && (forall i :: 0 <= i < |r.s| ==> IsPrintable(r.s[i]))
    ensures v.VStr? ==> IsSubsequence(r.s, v.s)
    ensures v.VStr? ==> forall c :: IsPrintable(c) ==> multiset(r.s)[c] == multiset(v.s)[c]
  {
    if v.VStr? then
      KeepIsSubsequence(v.s, IsPrintable);
      KeepCounts(v.s, IsPrintable);
      VStr(Keep(v.s, IsPrintable))
    else v
  }

  /** A string made only of word characters is left as it is. */
  lemma RemoveNonWordKeepsWords(s: string)
    requires forall i :: 0 <= i < |s| ==> IsWordChar(s[i])
    ensures RemoveNonWord(VStr(s)) == VStr(s)
  {
    KeepAllKept(s, IsWordChar);
  }

  lemma RemoveNonWordIdempotent(v: Value)
    ensures RemoveNonWord(RemoveNonWord(v)) == RemoveNonWord(v)
  {
    if v.VStr? {
      KeepIdempotent(v.s, IsWordChar);
    }
  }

  lemma RemoveNonPrintableIdempotent(v: Value)
    ensures RemoveNonPrintable(RemoveNonPrintable(v)) == RemoveNonPrintable(v)
  {
    if v.VStr? {
      KeepIdempotent(v.s, IsPrintable);
    }
  }

  /** `Cleaners::DigitsOnly`: nil exactly when the input has no digit,
      otherwise every digit of the input in order and nothing else. */
  function DigitsOnly(v: Value): (r: Value)
    ensures !v.VStr? ==> r == v
    ensures v.VStr? ==> (r == VNil <==> forall i :: 0 <= i < |v.s| ==> !IsDigit(v.s[i]))
    ensures v.VStr? && r != VNil ==> r.VStr? && (forall i :: 0 <= i < |r.s| ==> IsDigit(r.s[i]))
    ensures v.VStr? && r != VNil ==> IsSubsequence(r.s, v.s)
    ensures v.VStr? && r != VNil ==> forall c :: IsDigit(c) ==> multiset(r.s)[c] == multiset(v.s)[c]
  {
    if v.VStr? then
      var t := Keep(v.s, IsDigit);
      KeepIsSubsequence(v.s, IsDigit);
      KeepCounts(v.s, IsDigit);
      if |t| > 0 then VStr(t)
      else
        assert forall i :: 0 <= i < |v.s| ==> !IsDigit(v.s[i]) by {
          forall i | 0 <= i < |v.s| ensures !IsDigit(v.s[i]) {
            assert v.s[i] in multiset(v.s);
          }
        }
        VNil
    else v
  }

  // ---------------------------------------------------------------- StringToInteger

  predicate IsNumericChar(c: char) {
    IsDigit(c) || c == '.'
  }

  /** The longest prefix of `s` made of digits. */
  function LeadingDigits(s: string): (r: string)
    ensures |r| <= |s| && r == s[..|r|]
    ensures forall i :: 0 <= i < |r| ==> IsDigit(r[i])
    ensures |r| < |s| ==> !IsDigit(s[|r|])
  {
    if s != [] && IsDigit(s[0]) then [s[0]] + LeadingDigits(s[1..]) else []
  }

  /** Digits followed by something that is not a digit: the leading run is exactly those digits. */
  lemma {:induction false} LeadingDigitsStops(ds: string, rest: string)
    requires forall i :: 0 <= i < |ds| ==> IsDigit(ds[i])
    requires rest == [] || !IsDigit(rest[0])
    ensures LeadingDigits(ds + rest) == ds
  {
    if ds != [] {
      assert (ds + rest)[1..] == ds[1..] + rest;
      LeadingDigitsStops(ds[1..], rest);
    } else {
      assert ds + rest == rest;
    }
  }

  /** The number a run of decimal digits denotes. */
  function DecimalValue(ds: string): nat
    requires forall i :: 0 <= i < |ds| ==> IsDigit(ds[i])
  {
    if ds == [] then 0
    else
      assert IsDigit(ds[|ds| - 1]);
      DecimalValue(ds[..|ds| - 1]) * 10 + (ds[|ds| - 1] as int - '0' as int)
  }

  /** `String#to_i` on a string of digits and dots: the value of its leading digits. */
  function ToI(s: string): (n: nat)
    ensures s == [] || !IsDigit(s[0]) ==> n == 0
  {
    DecimalValue(LeadingDigits(s))
  }

  /** `Cleaners::StringToInteger`: nil exactly when no digit or dot is left
      after filtering; otherwise `to_i` of the filtered text. */
  function StringToInteger(v: Value): (r: Value)
    ensures !v.VStr? ==> r == v
    ensures v.VStr? ==> (r == VNil <==> forall i :: 0 <= i < |v.s| ==> !IsNumericChar(v.s[i]))
    ensures v.VStr? && r != VNil ==> r.VInt? && r.i >= 0
    ensures v.VStr? && r != VNil ==> r == VInt(ToI(Keep(v.s, IsNumericChar)))
  {
    if v.VStr? then
      var t := Keep(v.s, IsNumericChar);
      KeepCounts(v.s, IsNumericChar);
      if |t| > 0 then VInt(ToI(t))
      else
        assert forall i :: 0 <= i < |v.s| ==> !IsNumericChar(v.s[i]) by {
          forall i | 0 <= i < |v.s| ensures !IsNumericChar(v.s[i]) {
            assert v.s[i] in multiset(v.s);
          }
        }
        VNil
    else v
  }

  /** The decimal text of a natural number. */
  function Decimal(n: nat): (ds: string)
    ensures ds != [] && forall i :: 0 <= i < |ds| ==> IsDigit(ds[i])
  {
    var d := ('0' as int + n % 10) as char;
    if n < 10 then [d] else Decimal(n / 10) + [d]
  }

  lemma {:induction false} DecimalValueOfDecimal(n: nat)
    ensures DecimalValue(Decimal(n)) == n
  {
    var ds := Decimal(n);
    if n >= 10 {
      DecimalValueOfDecimal(n / 10);
      assert ds[..|ds| - 1] == Decimal(n / 10);
    }
  }

  /** Reading back the decimal text of any natural number gives that number. */
  lemma StringToIntegerRoundTrip(n: nat)
    ensures StringToInteger(VStr(Decimal(n))) == VInt(n)
  {
    var ds := Decimal(n);
    KeepAllKept(ds, IsNumericChar);
    assert LeadingDigits(ds) == ds;
    DecimalValueOfDecimal(n);
  }

  /** `to_i` reads the decimal text of `n` back as `n`, whatever non-digit follows it. */
  lemma ToIOfDecimal(n: nat, rest: string)
    requires rest == [] || !IsDigit(rest[0])
    ensures ToI(Decimal(n) + rest) == n
  {
    LeadingDigitsStops(Decimal(n), rest);
    DecimalValueOfDecimal(n);
  }

  /** Everything from the first dot on is ignored: the decimal text of `n`
      followed by a dot and anything at all gives `n` (so "136.89" gives 136). */
  lemma StringToIntegerTruncates(n: nat, t: string)
    ensures StringToInteger(VStr(Decimal(n) + "." + t)) == VInt(n)
  {
    var ds := Decimal(n) + ".";
    KeepAllKept(ds, IsNumericChar);
    KeepAppend(ds, t, IsNumericChar);
    var kept := Keep(t, IsNumericChar);
    assert Keep(ds + t, IsNumericChar) == Decimal(n) + ("." + kept);
    ToIOfDecimal(n, "." + kept);
  }

  /** A character outside `[0-9.]` makes no difference anywhere in the input. */
  lemma StringToIntegerIgnoresJunk(a: string, c: char, b: string)
    requires !IsNumericChar(c)
    ensures StringToInteger(VStr(a + [c] + b)) == StringToInteger(VStr(a + b))
  {
    KeepAppend(a + [c], b, IsNumericChar);
    KeepAppend(a, [c], IsNumericChar);
    KeepAppend(a, b, IsNumericChar);
    assert Keep([c], IsNumericChar) == [];
    assert Keep(a, IsNumericChar) + [] == Keep(a, IsNumericChar);
  }

  /** Only what survives the `NUMERIC` filter matters: the input and its
      filtered form convert alike. */
  lemma StringToIntegerFiltered(s: string)
    ensures StringToInteger(VStr(s)) == StringToInteger(VStr(Keep(s, IsNumericChar)))
  {
    KeepIdempotent(s, IsNumericChar);
  }

  // ---------------------------------------------------------------- CompressWhitespace

  /** The suffix left after dropping leading `\s` characters. */
  function DropSpaces(s: string): (r: string)
    ensures |r| <= |s|
    ensures r != [] ==> !IsSpace(r[0])
    ensures s != [] && IsSpace(s[0]) ==> |r| < |s|
  {
    if s != [] && IsSpace(s[0]) then DropSpaces(s[1..]) else s
  }

  /** `gsub(/\s+/, ' ')`: every maximal run of whitespace becomes one space. */
  function CompressText(s: string): (r: string)
    decreases |s|
    ensures (r == []) == (s == [])
    ensures s != [] ==> (IsSpace(r[0]) <==> IsSpace(s[0]))
  {
    if s == [] then []
    else if IsSpace(s[0]) then [' '] + CompressText(DropSpaces(s))
    else [s[0]] + CompressText(s[1..])
  }

  /** Every whitespace character is a plain space, and no two are adjacent. */
  predicate SingleSpaced(r: string) {
    (forall i :: 0 <= i < |r| && IsSpace(r[i]) ==> r[i] == ' ') &&
    (forall i :: 0 <= i < |r| - 1 ==> !(IsSpace(r[i]) && IsSpace(r[i + 1])))
  }

  /** Compressed text is single-spaced. */
  lemma {:induction false} CompressShape(s: string)
    ensures SingleSpaced(CompressText(s))
    decreases |s|
  {
    if s != [] {
      var r := CompressText(s);
      var t := if IsSpace(s[0]) then DropSpaces(s) else s[1..];
      var c := CompressText(t);
      CompressShape(t);
      var h := if IsSpace(s[0]) then ' ' else s[0];
      assert r == [h] + c;
      assert c != [] ==> !(IsSpace(h) && IsSpace(c[0]));
      forall i | 0 <= i < |r| && IsSpace(r[i]) ensures r[i] == ' ' {
        if i > 0 {
          assert r[i] == c[i - 1];
        }
      }
      forall i | 0 <= i < |r| - 1 ensures !(IsSpace(r[i]) && IsSpace(r[i + 1])) {
        if i > 0 {
          assert r[i] == c[i - 1] && r[i + 1] == c[i];
        } else {
          assert r[1] == c[0];
        }
      }
    }
  }

  predicate IsNonSpace(c: char) {
    !IsSpace(c)
  }

  lemma {:induction false} DropSpacesKeepsText(s: string)
    ensures Keep(DropSpaces(s), IsNonSpace) == Keep(s, IsNonSpace)
  {
    if s != [] && IsSpace(s[0]) {
      DropSpacesKeepsText(s[1..]);
    }
  }

  /** Compression changes whitespace only: the other characters are the same, in the same order. */
  lemma {:induction false} CompressKeepsText(s: string)
    ensures Keep(CompressText(s), IsNonSpace) == Keep(s, IsNonSpace)
    decreases |s|
  {
    if s != [] {
      if IsSpace(s[0]) {
        var t := DropSpaces(s);
        CompressKeepsText(t);
        DropSpacesKeepsText(s);
      } else {
        CompressKeepsText(s[1..]);
      }
    }
  }

  /** Dropping the leading whitespace of `x + t`, where `x` ends in a
      non-space, stops inside `x`. */
  lemma {:induction false} DropSpacesAppend(x: string, t: string)
    requires x != [] && !IsSpace(x[|x| - 1])
    ensures DropSpaces(x + t) == DropSpaces(x) + t
    ensures DropSpaces(x) != [] && DropSpaces(x)[|DropSpaces(x)| - 1] == x[|x| - 1]
  {
    if IsSpace(x[0]) {
      assert (x + t)[1..] == x[1..] + t;
      DropSpacesAppend(x[1..], t);
    }
  }

  /** A whitespace run followed by text that starts with a non-space is dropped whole. */
  lemma {:induction false} DropSpacesRun(w: string, b: string)
    requires forall i :: 0 <= i < |w| ==> IsSpace(w[i])
    requires b == [] || !IsSpace(b[0])
    ensures DropSpaces(w + b) == b
  {
    if w != [] {
      assert (w + b)[1..] == w[1..] + b;
      DropSpacesRun(w[1..], b);
    } else {
      assert w + b == b;
    }
  }

  /** Compression works piecewise when the first piece ends in a non-space:
      no whitespace run straddles the seam. */
  lemma {:induction false} CompressAppend(a: string, t: string)
    requires a == [] || !IsSpace(a[|a| - 1])
    ensures CompressText(a + t) == CompressText(a) + CompressText(t)
    decreases |a|, 1
  {
    if a == [] {
      assert a + t == t;
    } else if IsSpace(a[0]) {
      CompressAppendSpace(a, t);
    } else {
      var u, rest := a + t, a[1..];
      assert u[0] == a[0] && u[1..] == rest + t;
      CompressAppend(rest, t);
      assert [a[0]] + (CompressText(rest) + CompressText(t)) == ([a[0]] + CompressText(rest)) + CompressText(t);
    }
  }

  /** The case of `CompressAppend` where `a` starts with whitespace. */
  lemma {:induction false} CompressAppendSpace(a: string, t: string)
    requires a != [] && IsSpace(a[0]) && !IsSpace(a[|a| - 1])
    ensures CompressText(a + t) == CompressText(a) + CompressText(t)
    decreases |a|, 0
  {
    var u, d := a + t, DropSpaces(a);
    DropSpacesAppend(a, t);
    CompressAppend(d, t);
    assert u[0] == a[0];
    var cd, ct := CompressText(d), CompressText(t);
    assert CompressText(u) == [' '] + (cd + ct);
    assert [' '] + (cd + ct) == ([' '] + cd) + ct;
  }

  /** A whitespace run followed by text that starts with a non-space compresses to one space. */
  lemma CompressRunTail(w: string, b: string)
    requires w != [] && forall i :: 0 <= i < |w| ==> IsSpace(w[i])
    requires b == [] || !IsSpace(b[0])
    ensures CompressText(w + b) == [' '] + CompressText(b)
  {
    DropSpacesRun(w, b);
    assert (w + b)[0] == w[0];
  }

  /** Each maximal whitespace run `w`, between text ending and text starting
      with a non-space, becomes exactly one space in its place. */
  lemma CompressRun(a: string, w: string, b: string)
    requires a == [] || !IsSpace(a[|a| - 1])
    requires w != [] && forall i :: 0 <= i < |w| ==> IsSpace(w[i])
    requires b == [] || !IsSpace(b[0])
    ensures CompressText(a + (w + b)) == CompressText(a) + ([' '] + CompressText(b))
  {
    CompressRunTail(w, b);
    CompressAppend(a, w + b);
  }

  /** Text with no two adjacent whitespace characters, all of them spaces, is a fixed point. */
  lemma {:induction false} CompressFixed(s: string)
    requires SingleSpaced(s)
    ensures CompressText(s) == s
  {
    if s != [] {
      CompressFixed(s[1..]);
      if IsSpace(s[0]) {
        assert DropSpaces(s) == DropSpaces(s[1..]) == s[1..];
      }
    }
  }

  /** `Cleaners::CompressWhitespace`: no two adjacent whitespace characters,
      every whitespace character a plain space, the other characters kept in
      order, and starting with whitespace exactly when the input does. */
  function CompressWhitespace(v: Value): (r: Value)
    ensures !v.VStr? ==> r == v
    ensures v.VStr? ==> r.VStr? && Keep(r.s, IsNonSpace) == Keep(v.s, IsNonSpace)
    ensures v.VStr? ==> forall i :: 0 <= i < |r.s| - 1 ==> !(IsSpace(r.s[i]) && IsSpace(r.s[i + 1]))
    ensures v.VStr? ==> forall i :: 0 <= i < |r.s| && IsSpace(r.s[i]) ==> r.s[i] == ' '
  {
    if v.VStr? then
      CompressKeepsText(v.s);
      CompressShape(v.s);
      VStr(CompressText(v.s))
    else v
  }

  lemma CompressWhitespaceIdempotent(v: Value)
    ensures CompressWhitespace(CompressWhitespace(v)) == CompressWhitespace(v)
  {
    if v.VStr? {
      CompressShape(v.s);
      CompressFixed(CompressText(v.s));
    }
  }

  // ---------------------------------------------------------------- ReplaceHTMLMarkup

  /** The entities `/&(amp|quot|gt|lt|apos|nbsp);/i` matches and what each becomes. */
  const ENTITIES: seq<(string, char)> :=
    [("&amp;", '&'), ("&quot;", '"'), ("&gt;", '>'), ("&lt;", '<'), ("&apos;", '\''), ("&nbsp;", ' ')]

  /** `s` starts with entity `e`, ignoring the case of letters. */
  predicate StartsWithEntity(s: string, e: string) {
    |e| <= |s| && DowncaseText(s[..|e|]) == e
  }

  /** The index of the first entity at the start of `s`, searching from `k`. */
  function EntityAt(s: string, k: nat): (r: Option<nat>)
    decreases |ENTITIES| - k
    ensures r.Some? ==> k <= r.value < |ENTITIES| && StartsWithEntity(s, ENTITIES[r.value].0)
    ensures r.Some? ==> forall j :: k <= j < r.value ==> !StartsWithEntity(s, ENTITIES[j].0)
    ensures r.None? ==> forall j :: k <= j < |ENTITIES| ==> !StartsWithEntity(s, ENTITIES[j].0)
  {
    if k >= |ENTITIES| then None
    else if StartsWithEntity(s, ENTITIES[k].0) then Some(k)
    else EntityAt(s, k + 1)
  }

  /** `gsub(HTML_MARKUP) { ... }`: a left-to-right scan replacing each entity. */
  function UnescapeText(s: string): (r: string)
    decreases |s|
    ensures |r| <= |s|
  {
    if s == [] then []
    else match EntityAt(s, 0)
      case Some(k) => [ENTITIES[k].1] + UnescapeText(s[|ENTITIES[k].0|..])
      case None => [s[0]] + UnescapeText(s[1..])
  }

  /** `Cleaners::ReplaceHTMLMarkup`. */
  function ReplaceHtmlMarkup(v: Value): (r: Value)
    ensures !v.VStr? ==> r == v
    ensures v.VStr? ==> r.VStr? && |r.s| <= |v.s|
  {
    if v.VStr? then
      VStr(UnescapeText(v.s))
    else v
  }

  /** Text in which no entity starts anywhere, such as "&;" or "&blah;", is left untouched. */
  lemma {:induction false} UnescapeWithoutEntities(s: string)
    requires forall i :: 0 <= i < |s| ==> EntityAt(s[i..], 0).None?
    ensures ReplaceHtmlMarkup(VStr(s)) == VStr(s)
    decreases |s|
  {
    if s != [] {
      assert EntityAt(s[0..], 0).None?;
      assert s[0..] == s;
      forall i | 0 <= i < |s[1..]| ensures EntityAt(s[1..][i..], 0).None? {
        assert s[1..][i..] == s[i + 1..];
      }
      UnescapeWithoutEntities(s[1..]);
    }
  }

  /** No entity starts at position `i` of `s`. */
  predicate NoEntityAt(s: string, i: nat)
    requires i <= |s|
  {
    EntityAt(s[i..], 0).None?
  }

  /** No entity starts at any of the first `n` positions of `s`. */
  predicate NoEntityBefore(s: string, n: nat)
    requires n <= |s|
  {
    forall i :: 0 <= i < n ==> NoEntityAt(s, i)
  }

  /** A first character at which no entity starts is copied, and the scan
      moves on to the next one. */
  lemma KeepsNonEntity(s: string)
    requires s != [] && NoEntityAt(s, 0)
    ensures UnescapeText(s) == [s[0]] + UnescapeText(s[1..])
  {
    assert s[0..] == s;
  }

  /** Dropping the first character keeps the absence of entities in front. */
  lemma NoEntityBeforeTail(s: string, n: nat)
    requires 0 < n <= |s| && NoEntityBefore(s, n)
    ensures NoEntityBefore(s[1..], n - 1)
  {
    forall i | 0 <= i < n - 1 ensures NoEntityAt(s[1..], i) {
      assert NoEntityAt(s, i + 1);
      assert s[1..][i..] == s[i + 1..];
    }
  }

  /** Cutting off the first element splits the rest at one less. */
  lemma SplitAfterHead<T>(s: seq<T>, n: nat)
    requires 0 < n <= |s|
    ensures [s[0]] + s[1..][..n - 1] == s[..n] && s[1..][n - 1..] == s[n..]
  {
  }

  /** Concatenation is associative. */
  lemma ConcatAssoc<T>(x: seq<T>, y: seq<T>, z: seq<T>)
    ensures x + (y + z) == (x + y) + z
  {
  }

  /** Ordinary text in front, in which no entity starts, is copied as it is
      and the rest is unescaped after it. */
  lemma {:induction false} UnescapeAfterText(s: string, n: nat)
    requires n <= |s| && NoEntityBefore(s, n)
    ensures UnescapeText(s) == s[..n] + UnescapeText(s[n..])
    decreases n
  {
    if n > 0 {
      NoEntityBeforeTail(s, n);
      UnescapeAfterText(s[1..], n - 1);
      SplitAfterHead(s, n);
      assert NoEntityAt(s, 0);
      KeepsNonEntity(s);
      ConcatAssoc([s[0]], s[1..][..n - 1], UnescapeText(s[n..]));
    } else {
      assert s[n..] == s && s[..n] == [];
    }
  }

  /** An entity after ordinary text, such as "Jim &amp; Candi", is replaced
      in place: the text before it is kept, the entity becomes its character,
      and the scan continues after it. */
  lemma ReplacesEntityAfterText(a: string, u: string, t: string, k: nat)
    requires k < |ENTITIES| && |u| == |ENTITIES[k].0| && DowncaseText(u) == ENTITIES[k].0
    requires NoEntityBefore(a + (u + t), |a|)
    ensures UnescapeText(a + (u + t)) == a + ([ENTITIES[k].1] + UnescapeText(t))
  {
    var s := a + (u + t);
    UnescapeAfterText(s, |a|);
    assert s[..|a|] == a && s[|a|..] == u + t;
    ReplacesEntity(u, t, k);
  }

  /** Every entity starts with an ampersand, so none starts anywhere else. */
  lemma NoEntityWithoutAmpersand(s: string)
    requires s == [] || s[0] != '&'
    ensures NoEntityAt(s, 0)
  {
    assert s[0..] == s;
    forall k | 0 <= k < |ENTITIES| ensures !StartsWithEntity(s, ENTITIES[k].0) {
      var e := ENTITIES[k].0;
      assert e[0] == '&';
      if |e| <= |s| {
        assert DowncaseText(s[..|e|])[0] == DownChar(s[0]);
      }
    }
  }

  /** Text without an ampersand comes back unchanged. */
  lemma UnescapeWithoutAmpersand(s: string)
    requires forall i :: 0 <= i < |s| ==> s[i] != '&'
    ensures ReplaceHtmlMarkup(VStr(s)) == VStr(s)
  {
    forall i | 0 <= i < |s| ensures EntityAt(s[i..], 0).None? {
      NoEntityWithoutAmpersand(s[i..]);
      assert s[i..][0..] == s[i..];
    }
    UnescapeWithoutEntities(s);
  }

  /** One entity amid text without ampersands, as in "Jim &amp; Candi", is
      replaced by its character and the text around it is kept. */
  lemma ReplacesLoneEntity(a: string, u: string, t: string, k: nat)
    requires k < |ENTITIES| && |u| == |ENTITIES[k].0| && DowncaseText(u) == ENTITIES[k].0
    requires forall i :: 0 <= i < |a| ==> a[i] != '&'
    requires forall i :: 0 <= i < |t| ==> t[i] != '&'
    ensures ReplaceHtmlMarkup(VStr(a + u + t)) == VStr(a + [ENTITIES[k].1] + t)
  {
    var s := a + (u + t);
    forall i | 0 <= i < |a| ensures NoEntityAt(s, i) {
      assert s[i..][0] == a[i];
      NoEntityWithoutAmpersand(s[i..]);
      assert s[i..][0..] == s[i..];
    }
    ReplacesEntityAfterText(a, u, t, k);
    UnescapeWithoutAmpersand(t);
    ConcatAssoc(a, u, t);
    ConcatAssoc(a, [ENTITIES[k].1], t);
  }

  /** Two different entities disagree at some position both of them have. */
  lemma EntitiesDiffer(j: nat, k: nat)
    requires j < k < |ENTITIES|
    ensures exists d :: 0 <= d < |ENTITIES[j].0| && d < |ENTITIES[k].0| && ENTITIES[j].0[d] != ENTITIES[k].0[d]
  {
    if ENTITIES[j].0[1] != ENTITIES[k].0[1] {
      assert ENTITIES[j].0[1] != ENTITIES[k].0[1];
    } else {
      assert ENTITIES[j].0[2] != ENTITIES[k].0[2];
    }
  }

  /** An entity written in any mixture of cases is replaced by its character,
      and the scan continues right after it. */
  lemma ReplacesEntity(u: string, t: string, k: nat)
    requires k < |ENTITIES| && |u| == |ENTITIES[k].0| && DowncaseText(u) == ENTITIES[k].0
    ensures UnescapeText(u + t) == [ENTITIES[k].1] + UnescapeText(t)
  {
    var s := u + t;
    assert s[..|u|] == u;
    forall j | 0 <= j < k ensures !StartsWithEntity(s, ENTITIES[j].0) {
      EntitiesDiffer(j, k);
      var d :| 0 <= d < |ENTITIES[j].0| && d < |ENTITIES[k].0| && ENTITIES[j].0[d] != ENTITIES[k].0[d];
    }
    assert EntityAt(s, k) == Some(k);
    EntityAtSkips(s, 0, k);
    assert s[|ENTITIES[k].0|..] == t;
  }

  lemma {:induction false} EntityAtSkips(s: string, i: nat, k: nat)
    requires i <= k < |ENTITIES| && EntityAt(s, k) == Some(k)
    requires forall j :: i <= j < k ==> !StartsWithEntity(s, ENTITIES[j].0)
    ensures EntityAt(s, i) == Some(k)
    decreases k - i
  {
    if i < k {
      EntityAtSkips(s, i + 1, k);
    }
  }
}

=== FILE: cleanse.dfy ===
/** Rule declaration (`cleanse`) and rule execution (`cleanse_attributes!`)
    of lib/data_cleansing/cleanse.rb. */
module Cleanse {
  import opened Values
  import Registry

  // ---------------------------------------------------------------- declarations

  /** How a rule names its cleaner: a Proc, or a Symbol/String looked up in the registry. */
  datatype CleanerRef = Inline(f: CleanerFn) | Named(name: Name)

  /** A value in the options hash given to `cleanse`, as far as the engine inspects it. */
  datatype Param =
    | Falsy                      // nil or false
    | Ref(ref: CleanerRef)       // a Proc, Symbol or String
    | Names(names: seq<string>)  // an Array of symbols
    | Opaque                     // any other object

  /** An options hash, keyed by symbol. */
  type Options = map<string, Param>

  const CLEANER := "cleaner"
  const EXCEPT := "except"
  const ALL := "all"

  /** The trailing argument of `cleanse` when it is a Hash; `plain` says
      whether it is an instance of Hash itself rather than of a subclass. */
  datatype HashArg = HashArg(entries: Options, plain: bool)

  /** `CleanerStruct(cleaner, attributes, params)`: one declaration. */
  datatype Rule = Rule(cleaner: Param, attributes: seq<string>, params: Options)

  datatype Declared =
    | Declared(rule: Rule)
    | MissingCleaner(params: Options)  // the ArgumentError, carrying the options it reports

  /** The options `cleanse` works on: a copy of the trailing Hash, or `{}`. */
  function OptionsOf(last: Option<HashArg>): Options {
    if last.Some? && last.value.plain then last.value.entries else map[]
  }

  /** `cleanse(*attrs, options)`: the rule it declares, or the missing-cleaner error.
      The error is raised exactly when the options carry no truthy `:cleaner`
      (which includes every call whose last argument is not a plain Hash);
      otherwise the rule keeps the attributes as given, the cleaner, and the
      options without `:cleaner`. */
  function Declare(attrs: seq<string>, last: Option<HashArg>): (d: Declared)
    ensures d.MissingCleaner? <==>
              (last.None? || !last.value.plain || CLEANER !in last.value.entries || last.value.entries[CLEANER].Falsy?)
    ensures d.MissingCleaner? ==> CLEANER !in d.params
    ensures d.Declared? ==>
              d.rule.attributes == attrs &&
              d.rule.cleaner == last.value.entries[CLEANER] && !d.rule.cleaner.Falsy? &&
              CLEANER !in d.rule.params &&
              d.rule.params.Keys == last.value.entries.Keys - {CLEANER} &&
              (forall k :: k in d.rule.params ==> d.rule.params[k] == last.value.entries[k])
  {
    var params := OptionsOf(last);
    var cleaner := if CLEANER in params then params[CLEANER] else Falsy;
    var rest := params - {CLEANER};
    if cleaner.Falsy? then MissingCleaner(rest) else Declared(Rule(cleaner, attrs, rest))
  }

  /** The declaration side of a class that includes `DataCleansing::Cleanse`. */
  class RuleTable {
    /** `@cleaners`, also what `cleaners` returns: nil until the first declaration. */
    var rules: Option<seq<Rule>>

    constructor ()
      ensures rules == None
    {
      rules := None;
    }

    /** `ClassMethods#cleanse`: appends exactly one rule at the end, or raises
        and leaves the list alone. */
    method Cleanse(attrs: seq<string>, last: Option<HashArg>) returns (d: Declared)
      modifies this
      ensures d == Declare(attrs, last)
      ensures d.Declared? ==> rules == Some(old(rules).GetOr([]) + [d.rule])
      ensures d.MissingCleaner? ==> rules == old(rules)
    {
      d := Declare(attrs, last);
      if d.Declared? {
        var current := if rules.Some? then rules.value else [];
        rules := Some(current + [d.rule]);
      }
    }
  }

  // ---------------------------------------------------------------- the host object

  /** What the engine learns from the host object and its class. */
  datatype Schema = Schema(
    exposesAttributes: bool,                  // defined?(ActiveRecord) && respond_to?(:attributes)
    attributeNames: seq<string>,              // attributes.keys
    readsBeforeTypeCast: bool,                // respond_to?(:read_attribute_before_type_cast)
    serialized: Option<seq<string>>,          // serialized_attributes.keys, when the class has them
    encrypted: Option<seq<(string, string)>>  // encrypted_attributes as (clear, encrypted) pairs
  )

  /** Why `cleanse_attributes!` raised. */
  datatype Failure =
    | NoRulesDeclared            // `cleaners` is nil, so `nil.each` fails
    | ExceptNotAnArray           // `attrs -= except` with a non-Array
    | NoSuchAttribute(attr: string)  // no reader for the attribute on a plain object
    | NotACleaner                // `to_sym` on a cleaner that is no Proc, Symbol or String
    | UnknownCleaner(name: string)   // "No cleaner defined for ..."

  // ---------------------------------------------------------------- :all expansion

  /** `xs - ys`: the elements of `xs` that are not in `ys`, in order. */
  function Without(xs: seq<string>, ys: seq<string>): (r: seq<string>)
    ensures |r| <= |xs|
    ensures forall x :: x in r <==> x in xs && x !in ys
  {
    if xs == [] then []
    else if xs[0] in ys then Without(xs[1..], ys)
    else [xs[0]] + Without(xs[1..], ys)
  }

  /** One step of the encrypted-attribute pass: when the encrypted name is
      listed, all its occurrences are deleted and the clear name is appended. */
  function RenameOne(attrs: seq<string>, pair: (string, string)): seq<string> {
    if pair.1 in attrs then Without(attrs, [pair.1]) + [pair.0] else attrs
  }

  /** The encrypted-attribute pass over every (clear, encrypted) pair in turn. */
  function Rename(attrs: seq<string>, pairs: seq<(string, string)>): (r: seq<string>)
    ensures forall x :: x in r ==> x in attrs || exists p :: p in pairs && x == p.0
    decreases |pairs|
  {
    if pairs == [] then attrs else Rename(RenameOne(attrs, pairs[0]), pairs[1..])
  }

  /** The serialized-attribute filter and encrypted-attribute pass applied to a name list. */
  function HostFilter(attrs: seq<string>, s: Schema): seq<string> {
    var kept := if s.serialized.Some? then Without(attrs, s.serialized.value) else attrs;
    if s.encrypted.Some? then Rename(kept, s.encrypted.value) else kept
  }

  /** Does the rule's attribute list get replaced by the host's attributes? */
  predicate IsWildcard(rule: Rule, s: Schema) {
    ALL in rule.attributes && s.exposesAttributes
  }

  /** The outcome of resolving a rule's attribute list. */
  datatype Expansion = Expansion(targets: seq<string>, params: Options, failure: Option<Failure>)

  /** Spec of the attribute-list resolution at the top of each rule. */
  function Expand(rule: Rule, s: Schema): (e: Expansion)
    ensures !IsWildcard(rule, s) ==> e == Expansion(rule.attributes, rule.params, None)
    ensures IsWildcard(rule, s) ==> e.params == rule.params - {EXCEPT}
    ensures e.failure.Some? <==>
              IsWildcard(rule, s) && EXCEPT in rule.params &&
              !(rule.params[EXCEPT].Falsy? || rule.params[EXCEPT].Names?)
    ensures e.failure.Some? ==> e.failure == Some(ExceptNotAnArray) && e.targets == []
  {
    if IsWildcard(rule, s) then
      var except := if EXCEPT in rule.params then rule.params[EXCEPT] else Falsy;
      var params := rule.params - {EXCEPT};
      match except
      case Falsy => Expansion(HostFilter(s.attributeNames, s), params, None)
      case Names(ex) => Expansion(HostFilter(Without(s.attributeNames, ex), s), params, None)
      case _ => Expansion([], params, Some(ExceptNotAnArray))
    else Expansion(rule.attributes, rule.params, None)
  }

  /** The attribute-list resolution, as the source runs it: it deletes
      `:except` from the rule's params and edits the name list step by step. */
  method ExpandTargets(rule: Rule, s: Schema) returns (targets: seq<string>, params: Options, failure: Option<Failure>)
    ensures Expansion(targets, params, failure) == Expand(rule, s)
  {
    targets, params, failure := rule.attributes, rule.params, None;
    if ALL in rule.attributes && s.exposesAttributes {
      targets := s.attributeNames;
      var except := if EXCEPT in params then params[EXCEPT] else Falsy;
      params := params - {EXCEPT};
      match except {
        case Falsy =>
        case Names(ex) => targets := Without(targets, ex);
        case _ => return [], params, Some(ExceptNotAnArray);
      }
      if s.serialized.Some? {
        targets := Without(targets, s.serialized.value);
      }
      if s.encrypted.Some? {
        var pairs := s.encrypted.value;
        ghost var start := targets;
        var i := 0;
        while i < |pairs|
          invariant 0 <= i <= |pairs|
          invariant Rename(targets, pairs[i..]) == Rename(start, pairs)
        {
          assert pairs[i..][1..] == pairs[i + 1..];
          var (clear, encrypted) := pairs[i];
          if encrypted in targets {
            targets := Without(targets, [encrypted]) + [clear];
          }
          i := i + 1;
        }
      }
    }
  }

  // ---------------------------------------------------------------- one attribute

  /** The raw value of an attribute: `read_attribute_before_type_cast`, which
      gives nil for an unknown name, or the plain reader, which raises. */
  function ReadRaw(attrs: map<string, Value>, attr: string, s: Schema): (r: Option<Value>)
    ensures r.None? <==> attr !in attrs && !s.readsBeforeTypeCast
    ensures r.Some? && attr in attrs ==> r.value == attrs[attr]
    ensures r.Some? && attr !in attrs ==> r.value == VNil
  {
    if attr in attrs then Some(attrs[attr])
    else if s.readsBeforeTypeCast then Some(VNil)
    else None
  }

  datatype Resolved = Callable(f: CleanerFn) | Unresolved(failure: Failure)

  /** An inline Proc is called as it is; a name is looked up in the registry. */
  function Resolve(cleaner: Param, registry: map<string, CleanerFn>): (r: Resolved)
    ensures r.Unresolved? ==> r.failure.NotACleaner? || r.failure.UnknownCleaner?
    ensures cleaner.Ref? && cleaner.ref.Inline? ==> r == Callable(cleaner.ref.f)
    ensures cleaner.Ref? && cleaner.ref.Named? ==>
              (r.Callable? <==> Registry.Lookup(registry, cleaner.ref.name).Some?)
    ensures cleaner.Ref? && cleaner.ref.Named? && r.Callable? ==>
              Registry.Lookup(registry, cleaner.ref.name) == Some(r.f)
    ensures cleaner.Ref? && cleaner.ref.Named? && r.Unresolved? ==>
              r.failure == UnknownCleaner(cleaner.ref.name.ToSym())
    ensures !cleaner.Ref? ==> r == Unresolved(NotACleaner)
  {
    match cleaner
    case Ref(Inline(f)) => Callable(f)
    case Ref(Named(n)) =>
      (match Registry.Lookup(registry, n)
       case Some(f) => Callable(f)
       case None => Unresolved(UnknownCleaner(n.ToSym())))
    case _ => Unresolved(NotACleaner)
  }

  /** One setter call `attr=(value)`. */
  datatype Write = Write(attr: string, value: Value)

  /** The attributes, the setter calls made so far, and the failure if one was raised. */
  datatype Step = Step(attrs: map<string, Value>, writes: seq<Write>, failure: Option<Failure>)

  /** The body of the inner loop for one attribute: read, skip nil, resolve,
      call, write back only a changed value. A nil raw value is skipped; at
      most one setter call is made, to `attr`, and only with a new value; no
      other attribute changes, and nothing changes when it raises. */
  function CleanOne(attrs: map<string, Value>, attr: string, cleaner: Param,
                    registry: map<string, CleanerFn>, s: Schema): (r: Step)
    ensures ReadRaw(attrs, attr, s) == Some(VNil) ==> r == Step(attrs, [], None)
    ensures r.writes == [] <==> r.attrs == attrs
    ensures r.writes != [] ==>
              attr in attrs && attr in r.attrs && r.attrs == attrs[attr := r.attrs[attr]] &&
              r.writes == [Write(attr, r.attrs[attr])] && r.attrs[attr] != attrs[attr]
    ensures r.failure.Some? ==> r.attrs == attrs
  {
    match ReadRaw(attrs, attr, s)
    case None => Step(attrs, [], Some(NoSuchAttribute(attr)))
    case Some(v) =>
      if v.VNil? then Step(attrs, [], None)
      else match Resolve(cleaner, registry)
        case Unresolved(e) => Step(attrs, [], Some(e))
        case Callable(f) =>
          var nv := f(v);
          if nv != v then Step(attrs[attr := nv], [Write(attr, nv)], None) else Step(attrs, [], None)
  }

  /** The inner loop over a rule's attributes, in order, stopping at the
      first failure. No attribute is added or removed, each target is
      written at most once, and nothing changes without a write. */
  function CleanAll(attrs: map<string, Value>, targets: seq<string>, cleaner: Param,
                    registry: map<string, CleanerFn>, s: Schema): (r: Step)
    decreases |targets|
    ensures r.attrs.Keys == attrs.Keys
    ensures |r.writes| <= |targets|
    ensures r.writes == [] ==> r.attrs == attrs
  {
    if targets == [] then Step(attrs, [], None)
    else
      var p := CleanAll(attrs, targets[..|targets| - 1], cleaner, registry, s);
      if p.failure.Some? then p
      else
        var q := CleanOne(p.attrs, targets[|targets| - 1], cleaner, registry, s);
        Step(q.attrs, p.writes + q.writes, q.failure)
  }

  /** One rule: its stored form afterwards (`:except` consumed) and its
      effect. A malformed `:except` raises before any attribute is read;
      only a wildcard rule's stored options change. */
  function ApplyRule(attrs: map<string, Value>, rule: Rule,
                     registry: map<string, CleanerFn>, s: Schema): (r: (Rule, Step))
    ensures r.0.cleaner == rule.cleaner && r.0.attributes == rule.attributes
    ensures IsWildcard(rule, s) ==> EXCEPT !in r.0.params
    ensures !IsWildcard(rule, s) ==> r.0 == rule
    ensures Expand(rule, s).failure.Some? ==> r.1 == Step(attrs, [], Some(ExceptNotAnArray))
    ensures r.1.attrs.Keys == attrs.Keys
  {
    var e := Expand(rule, s);
    var stored := rule.(params := e.params);
    if e.failure.Some? then (stored, Step(attrs, [], e.failure))
    else (stored, CleanAll(attrs, e.targets, rule.cleaner, registry, s))
  }

  /** The whole pass: attributes, the rule list as stored afterwards, the
      setter calls in order, and the failure if one was raised. */
  datatype Pass = Pass(attrs: map<string, Value>, rules: seq<Rule>, writes: seq<Write>, failure: Option<Failure>)

  /** One iteration of the outer loop: nothing more happens once a rule has
      raised; otherwise the next rule runs on the attributes as they are. */
  function Continue(p: Pass, rule: Rule, registry: map<string, CleanerFn>, s: Schema): (r: Pass)
    ensures |r.rules| == |p.rules| + 1
  {
    if p.failure.Some? then Pass(p.attrs, p.rules + [rule], p.writes, p.failure)
    else
      var (stored, q) := ApplyRule(p.attrs, rule, registry, s);
      Pass(q.attrs, p.rules + [stored], p.writes + q.writes, q.failure)
  }

  /** The outer loop over the rules in declaration order, stopping at the first failure. */
  function Run(attrs: map<string, Value>, rules: seq<Rule>,
               registry: map<string, CleanerFn>, s: Schema): (p: Pass)
    ensures |p.rules| == |rules|
    decreases |rules|
  {
    if rules == [] then Pass(attrs, [], [], None)
    else Continue(Run(attrs, rules[..|rules| - 1], registry, s), rules[|rules| - 1], registry, s)
  }
}

/** The host object and `InstanceMethods#cleanse_attributes!`. */
module CleanseEngine {
  import opened Values
  import Registry
  import opened Cleanse

  /** Once the inner loop has failed on a prefix of the targets, the rest is never visited. */
  lemma {:induction false} CleanAllStopsAtFailure(attrs: map<string, Value>, targets: seq<string>, j: nat, cleaner: Param,
                                                  registry: map<string, CleanerFn>, s: Schema)
    requires j <= |targets|
    requires CleanAll(attrs, targets[..j], cleaner, registry, s).failure.Some?
    ensures CleanAll(attrs, targets, cleaner, registry, s) == CleanAll(attrs, targets[..j], cleaner, registry, s)
    decreases |targets| - j
  {
    if j < |targets| {
      var n := |targets|;
      assert targets[..n - 1][..j] == targets[..j];
      CleanAllStopsAtFailure(attrs, targets[..n - 1], j, cleaner, registry, s);
    } else {
      assert targets[..j] == targets;
    }
  }

  /** Once a rule has raised, the later rules neither run nor change; what
      was written before stays written. */
  lemma {:induction false} RunStopsAtFailure(attrs: map<string, Value>, rules: seq<Rule>, k: nat,
                                             registry: map<string, CleanerFn>, s: Schema)
    requires k <= |rules|
    requires Run(attrs, rules[..k], registry, s).failure.Some?
    ensures var p := Run(attrs, rules[..k], registry, s);
            Run(attrs, rules, registry, s) == Pass(p.attrs, p.rules + rules[k..], p.writes, p.failure)
    decreases |rules| - k
  {
    var n := |rules|;
    if k < n {
      assert rules[..n - 1][..k] == rules[..k];
      RunStopsAtFailure(attrs, rules[..n - 1], k, registry, s);
      assert rules[..n - 1][k..] + [rules[n - 1]] == rules[k..];
    } else {
      assert rules[..k] == rules;
    }
  }

  /** An object whose class includes `DataCleansing::Cleanse`. */
  class Host {
    /** The raw (pre-typecast) value of every attribute the object has. */
    var attrs: map<string, Value>
    const schema: Schema

    constructor (attrs: map<string, Value>, schema: Schema)
      ensures this.attrs == attrs && this.schema == schema
    {
      this.attrs := attrs;
      this.schema := schema;
    }

    /** The body of the inner loop for one attribute (cleanse.rb, the block
        of `attrs.each`): read the raw value, skip nil, resolve the cleaner,
        call it, and call the setter only when the value changed. */
    method CleanAttribute(attr: string, cleaner: Param, registry: Registry.CleanerRegistry)
      returns (raised: Option<Failure>, ghost written: seq<Write>)
      modifies this
      ensures CleanOne(old(attrs), attr, cleaner, registry.cleaners, schema) == Step(attrs, written, raised)
    {
      written := [];
      raised := None;
      var value := VNil;
      if attr in attrs {
        value := attrs[attr];
      } else if !schema.readsBeforeTypeCast {
        return Some(NoSuchAttribute(attr)), [];
      }
      if value.VNil? {
        return;
      }
      var f: CleanerFn;
      match cleaner {
        case Ref(Inline(g)) => f := g;
        case Ref(Named(n)) =>
          var c := registry.Cleaner(n);
          if c.None? {
            return Some(UnknownCleaner(n.ToSym())), [];
          }
          f := c.value;
        case _ => return Some(NotACleaner), [];
      }
      var newValue := f(value);
      if newValue != value {
        attrs := attrs[attr := newValue];
        written := [Write(attr, newValue)];
      }
    }

    /** The inner loop: every attribute of one rule, in order, until one raises. */
    method CleanTargets(targets: seq<string>, cleaner: Param, registry: Registry.CleanerRegistry)
      returns (raised: Option<Failure>, ghost written: seq<Write>)
      modifies this
      ensures CleanAll(old(attrs), targets, cleaner, registry.cleaners, schema) == Step(attrs, written, raised)
    {
      ghost var before := attrs;
      written := [];
      raised := None;
      var j := 0;
      while j < |targets| && raised.None?
        invariant 0 <= j <= |targets|
        invariant CleanAll(before, targets[..j], cleaner, registry.cleaners, schema) == Step(attrs, written, raised)
      {
        assert targets[..j + 1][..j] == targets[..j];
        assert targets[..j + 1][j] == targets[j];
        ghost var w;
        raised, w := CleanAttribute(targets[j], cleaner, registry);
        written := written + w;
        j := j + 1;
      }
      if raised.Some? {
        CleanAllStopsAtFailure(before, targets, j, cleaner, registry.cleaners, schema);
      } else {
        assert targets[..j] == targets;
      }
    }

    /** The body of the outer loop for one rule: resolve its attribute list,
        then clean each attribute. Returns the rule as it is stored afterwards. */
    method CleanRule(rule: Rule, registry: Registry.CleanerRegistry)
      returns (stored: Rule, raised: Option<Failure>, ghost written: seq<Write>)
      modifies this
      ensures ApplyRule(old(attrs), rule, registry.cleaners, schema) == (stored, Step(attrs, written, raised))
    {
      var targets, params, failure := ExpandTargets(rule, schema);
      stored := rule.(params := params);
      if failure.Some? {
        return stored, failure, [];
      }
      raised, written := CleanTargets(targets, rule.cleaner, registry);
    }

    /** `cleanse_attributes!`: runs the class's rules in declaration order
        over the attributes and reports what it raised, if anything. The new
        attributes, the stored rules (with `:except` consumed) and the failure
        are exactly those of `Run`. */
    method CleanseAttributes(table: RuleTable, registry: Registry.CleanerRegistry) returns (raised: Option<Failure>)
      modifies this, table
      ensures old(table.rules).None? ==>
                raised == Some(NoRulesDeclared) && attrs == old(attrs) && table.rules == None
      ensures old(table.rules).Some? ==>
                var p := Run(old(attrs), old(table.rules).value, registry.cleaners, schema);
                attrs == p.attrs && table.rules == Some(p.rules) && raised == p.failure
    {
      if table.rules.None? {
        return Some(NoRulesDeclared);
      }
      var rules := table.rules.value;
      ghost var attrs0 := attrs;
      ghost var writes: seq<Write> := [];
      var done: seq<Rule> := [];
      raised := None;
      var i := 0;
      assert done + rules[i..] == rules;
      while i < |rules| && raised.None?
        invariant 0 <= i <= |rules|
        invariant Run(attrs0, rules[..i], registry.cleaners, schema) == Pass(attrs, done, writes, raised)
        invariant table.rules == Some(done + rules[i..])
      {
        var rule := rules[i];
        assert rules[..i + 1][..i] == rules[..i];
        assert rules[..i + 1][i] == rule;
        var stored; ghost var w;
        stored, raised, w := CleanRule(rule, registry);
        table.rules := Some(done + [stored] + rules[i + 1..]);
        writes := writes + w;
        done := done + [stored];
        i := i + 1;
      }
      if raised.Some? {
        RunStopsAtFailure(attrs0, rules, i, registry.cleaners, schema);
      } else {
        assert rules[..i] == rules;
        assert done + rules[i..] == done;
      }
    }
  }
}

=== FILE: cleanse_properties.dfy ===
/** What `cleanse_attributes!` guarantees, stated over its specification `Run`. */
module CleanseProperties {
  import opened Values
  import opened Cleanse
  import Text

  // ---------------------------------------------------------------- setter calls

  /** The attributes after the setter calls `writes`, made in order. */
  function Replay(attrs: map<string, Value>, writes: seq<Write>): map<string, Value>
    decreases |writes|
  {
    if writes == [] then attrs
    else
      var w := writes[|writes| - 1];
      Replay(attrs, writes[..|writes| - 1])[w.attr := w.value]
  }

  /** Every setter call targets an existing attribute and changes its value. */
  ghost predicate OnlyChanges(attrs: map<string, Value>, writes: seq<Write>)
    decreases |writes|
  {
    writes == [] ||
    (OnlyChanges(attrs, writes[..|writes| - 1]) &&
     var w := writes[|writes| - 1];
     var before := Replay(attrs, writes[..|writes| - 1]);
     w.attr in before && before[w.attr] != w.value)
  }

  /** Every setter call names an attribute in `names`. */
  ghost predicate AllIn(writes: seq<Write>, names: seq<string>) {
    forall w :: w in writes ==> w.attr in names
  }

  lemma {:induction false} ReplayAppend(attrs: map<string, Value>, w1: seq<Write>, w2: seq<Write>)
    ensures Replay(attrs, w1 + w2) == Replay(Replay(attrs, w1), w2)
    decreases |w2|
  {
    if w2 == [] {
      assert w1 + w2 == w1;
    } else {
      var n := |w2|;
      assert (w1 + w2)[..|w1 + w2| - 1] == w1 + w2[..n - 1];
      ReplayAppend(attrs, w1, w2[..n - 1]);
    }
  }

  lemma {:induction false} OnlyChangesAppend(attrs: map<string, Value>, w1: seq<Write>, w2: seq<Write>)
    requires OnlyChanges(attrs, w1) && OnlyChanges(Replay(attrs, w1), w2)
    ensures OnlyChanges(attrs, w1 + w2)
    decreases |w2|
  {
    if w2 == [] {
      assert w1 + w2 == w1;
    } else {
      var n := |w2|;
      assert (w1 + w2)[..|w1 + w2| - 1] == w1 + w2[..n - 1];
      OnlyChangesAppend(attrs, w1, w2[..n - 1]);
      ReplayAppend(attrs, w1, w2[..n - 1]);
    }
  }

  /** The recursive definition read as a statement about each call: the
      `k`-th setter call changes the value the first `k` calls left. */
  lemma {:induction false} OnlyChangesEach(attrs: map<string, Value>, writes: seq<Write>, k: nat)
    requires OnlyChanges(attrs, writes) && k < |writes|
    ensures writes[k].attr in Replay(attrs, writes[..k])
    ensures Replay(attrs, writes[..k])[writes[k].attr] != writes[k].value
    decreases |writes|
  {
    var n := |writes|;
    if k < n - 1 {
      OnlyChangesEach(attrs, writes[..n - 1], k);
      assert writes[..n - 1][..k] == writes[..k];
    }
  }

  /** Replaying calls that only change existing attributes keeps the set of attribute names. */
  lemma {:induction false} ReplayKeepsNames(attrs: map<string, Value>, writes: seq<Write>)
    requires OnlyChanges(attrs, writes)
    ensures Replay(attrs, writes).Keys == attrs.Keys
    decreases |writes|
  {
    if writes != [] {
      ReplayKeepsNames(attrs, writes[..|writes| - 1]);
    }
  }

  /** An attribute no setter call names keeps its value. */
  lemma {:induction false} ReplayUntouched(attrs: map<string, Value>, writes: seq<Write>, x: string)
    requires forall w :: w in writes ==> w.attr != x
    ensures x in Replay(attrs, writes) <==> x in attrs
    ensures x in attrs ==> Replay(attrs, writes)[x] == attrs[x]
    decreases |writes|
  {
    if writes != [] {
      ReplayUntouched(attrs, writes[..|writes| - 1], x);
    }
  }

  // ---------------------------------------------------------------- the write trace is faithful

  lemma CleanOneAccounts(attrs: map<string, Value>, attr: string, cleaner: Param,
                         registry: map<string, CleanerFn>, s: Schema)
    ensures var r := CleanOne(attrs, attr, cleaner, registry, s);
            r.attrs == Replay(attrs, r.writes) && OnlyChanges(attrs, r.writes) &&
            (forall w :: w in r.writes ==> w.attr == attr)
  {
    var r := CleanOne(attrs, attr, cleaner, registry, s);
    if r.writes != [] {
      assert r.writes[..|r.writes| - 1] == [];
    }
  }

  lemma {:induction false} CleanAllAccounts(attrs: map<string, Value>, targets: seq<string>, cleaner: Param,
                                            registry: map<string, CleanerFn>, s: Schema)
    ensures var r := CleanAll(attrs, targets, cleaner, registry, s);
            r.attrs == Replay(attrs, r.writes) && OnlyChanges(attrs, r.writes) && AllIn(r.writes, targets)
    decreases |targets|
  {
    if targets != [] {
      var n := |targets|;
      var front := targets[..n - 1];
      var p := CleanAll(attrs, front, cleaner, registry, s);
      CleanAllAccounts(attrs, front, cleaner, registry, s);
      assert AllIn(p.writes, targets) by {
        forall w | w in p.writes ensures w.attr in targets {
          assert w.attr in front;
        }
      }
      if p.failure.None? {
        var q := CleanOne(p.attrs, targets[n - 1], cleaner, registry, s);
        CleanOneAccounts(p.attrs, targets[n - 1], cleaner, registry, s);
        assert CleanAll(attrs, targets, cleaner, registry, s) == Step(q.attrs, p.writes + q.writes, q.failure);
        ReplayAppend(attrs, p.writes, q.writes);
        OnlyChangesAppend(attrs, p.writes, q.writes);
      }
    }
  }

  /** Any setter call of the pass names an attribute some rule targets. */
  ghost predicate Targeted(writes: seq<Write>, rules: seq<Rule>, s: Schema) {
    forall w :: w in writes ==> exists k :: 0 <= k < |rules| && w.attr in Expand(rules[k], s).targets
  }

  /** The attributes after a pass are exactly the result of its setter
      calls, every one of which changes the value it replaces ("update value
      if it has changed"); no attribute is added or removed. */
  lemma {:induction false} RunAccounts(attrs: map<string, Value>, rules: seq<Rule>,
                                       registry: map<string, CleanerFn>, s: Schema)
    ensures var p := Run(attrs, rules, registry, s);
            p.attrs == Replay(attrs, p.writes) && OnlyChanges(attrs, p.writes) && p.attrs.Keys == attrs.Keys
    decreases |rules|
  {
    var p := Run(attrs, rules, registry, s);
    if rules != [] {
      var n := |rules|;
      var last := rules[n - 1];
      var p0 := Run(attrs, rules[..n - 1], registry, s);
      RunAccounts(attrs, rules[..n - 1], registry, s);
      if p0.failure.None? {
        var e := Expand(last, s);
        if e.failure.None? {
          var q := CleanAll(p0.attrs, e.targets, last.cleaner, registry, s);
          assert p.attrs == q.attrs && p.writes == p0.writes + q.writes;
          CleanAllAccounts(p0.attrs, e.targets, last.cleaner, registry, s);
          ReplayAppend(attrs, p0.writes, q.writes);
          OnlyChangesAppend(attrs, p0.writes, q.writes);
        } else {
          assert p.attrs == p0.attrs && p.writes == p0.writes + [];
          assert p0.writes + [] == p0.writes;
        }
      }
      ReplayKeepsNames(attrs, p.writes);
    }
  }

  /** Every setter call of a pass names an attribute that some rule targets
      after `:all` expansion. */
  lemma {:induction false} RunTargeted(attrs: map<string, Value>, rules: seq<Rule>,
                                       registry: map<string, CleanerFn>, s: Schema)
    ensures Targeted(Run(attrs, rules, registry, s).writes, rules, s)
    decreases |rules|
  {
    var p := Run(attrs, rules, registry, s);
    if rules != [] {
      var n := |rules|;
      var last := rules[n - 1];
      var p0 := Run(attrs, rules[..n - 1], registry, s);
      RunTargeted(attrs, rules[..n - 1], registry, s);
      ForgetLastRule(p0.writes, rules, s);
      if p0.failure.None? {
        var e := Expand(last, s);
        if e.failure.None? {
          var q := CleanAll(p0.attrs, e.targets, last.cleaner, registry, s);
          assert p.writes == p0.writes + q.writes;
          CleanAllAccounts(p0.attrs, e.targets, last.cleaner, registry, s);
          forall w | w in p.writes
            ensures exists k :: 0 <= k < |rules| && w.attr in Expand(rules[k], s).targets
          {
            if w !in p0.writes {
              assert w in q.writes;
              assert w.attr in Expand(rules[n - 1], s).targets;
            }
          }
        } else {
          assert p.writes == p0.writes + [];
          assert p0.writes + [] == p0.writes;
        }
      }
    }
  }

  lemma ForgetLastRule(writes: seq<Write>, rules: seq<Rule>, s: Schema)
    requires rules != [] && Targeted(writes, rules[..|rules| - 1], s)
    ensures Targeted(writes, rules, s)
  {
    forall w | w in writes ensures exists k :: 0 <= k < |rules| && w.attr in Expand(rules[k], s).targets {
      var k :| 0 <= k < |rules| - 1 && w.attr in Expand(rules[..|rules| - 1][k], s).targets;
      assert rules[..|rules| - 1][k] == rules[k];
    }
  }

  /** An attribute that no rule targets (after `:all` expansion) is never
      written and keeps its value. */
  lemma UntargetedUntouched(attrs: map<string, Value>, rules: seq<Rule>,
                            registry: map<string, CleanerFn>, s: Schema, x: string)
    requires forall k :: 0 <= k < |rules| ==> x !in Expand(rules[k], s).targets
    ensures var p := Run(attrs, rules, registry, s);
            (forall w :: w in p.writes ==> w.attr != x) &&
            (x in p.attrs <==> x in attrs) && (x in attrs ==> p.attrs[x] == attrs[x])
  {
    var p := Run(attrs, rules, registry, s);
    RunAccounts(attrs, rules, registry, s);
    RunTargeted(attrs, rules, registry, s);
    ReplayUntouched(attrs, p.writes, x);
  }

  // ---------------------------------------------------------------- nil is skipped

  lemma {:induction false} CleanAllKeepsNil(attrs: map<string, Value>, targets: seq<string>, cleaner: Param,
                                            registry: map<string, CleanerFn>, s: Schema, x: string)
    requires x in attrs && attrs[x] == VNil
    ensures var r := CleanAll(attrs, targets, cleaner, registry, s);
            x in r.attrs && r.attrs[x] == VNil && forall w :: w in r.writes ==> w.attr != x
    decreases |targets|
  {
    if targets != [] {
      CleanAllKeepsNil(attrs, targets[..|targets| - 1], cleaner, registry, s, x);
    }
  }

  /** One outer-loop step keeps a nil attribute nil and unwritten. */
  lemma ContinueKeepsNil(p: Pass, rule: Rule, registry: map<string, CleanerFn>, s: Schema, x: string)
    requires x in p.attrs && p.attrs[x] == VNil && forall w :: w in p.writes ==> w.attr != x
    ensures var r := Continue(p, rule, registry, s);
            x in r.attrs && r.attrs[x] == VNil && forall w :: w in r.writes ==> w.attr != x
  {
    var e := Expand(rule, s);
    if p.failure.None? && e.failure.None? {
      var q := CleanAll(p.attrs, e.targets, rule.cleaner, registry, s);
      CleanAllKeepsNil(p.attrs, e.targets, rule.cleaner, registry, s, x);
      assert ApplyRule(p.attrs, rule, registry, s).1 == q;
      assert forall w :: w in p.writes + q.writes ==> w in p.writes || w in q.writes;
    }
  }

  /** An attribute whose raw value is nil is never passed to a cleaner and
      never written: it is still nil after the pass, whatever the rules. */
  lemma {:induction false} NilIsSkipped(attrs: map<string, Value>, rules: seq<Rule>,
                                        registry: map<string, CleanerFn>, s: Schema, x: string)
    requires x in attrs && attrs[x] == VNil
    ensures var p := Run(attrs, rules, registry, s);
            x in p.attrs && p.attrs[x] == VNil && forall w :: w in p.writes ==> w.attr != x
    decreases |rules|
  {
    if rules != [] {
      var n := |rules|;
      NilIsSkipped(attrs, rules[..n - 1], registry, s, x);
      ContinueKeepsNil(Run(attrs, rules[..n - 1], registry, s), rules[n - 1], registry, s, x);
    }
  }

  /** Every raw value nil (as read through `read_attribute_before_type_cast`). */
  ghost predicate AllNil(attrs: map<string, Value>) {
    forall y :: y in attrs ==> attrs[y] == VNil
  }

  lemma {:induction false} CleanAllAllNil(attrs: map<string, Value>, targets: seq<string>, cleaner: Param,
                                          registry: map<string, CleanerFn>, s: Schema)
    requires AllNil(attrs) && s.readsBeforeTypeCast
    ensures CleanAll(attrs, targets, cleaner, registry, s) == Step(attrs, [], None)
    decreases |targets|
  {
    if targets != [] {
      CleanAllAllNil(attrs, targets[..|targets| - 1], cleaner, registry, s);
    }
  }

  /** When every raw value is nil, no cleaner is ever resolved: even rules
      naming unknown cleaners, or Arrays of them, raise nothing, and nothing
      is written. Only a malformed `:except` can still raise. */
  lemma {:induction false} AllNilNeverResolves(attrs: map<string, Value>, rules: seq<Rule>,
                                               registry: map<string, CleanerFn>, s: Schema)
    requires AllNil(attrs) && s.readsBeforeTypeCast
    ensures var p := Run(attrs, rules, registry, s);
            p.attrs == attrs && p.writes == [] && (p.failure.None? || p.failure == Some(ExceptNotAnArray))
    decreases |rules|
  {
    if rules != [] {
      var n := |rules|;
      var p0 := Run(attrs, rules[..n - 1], registry, s);
      AllNilNeverResolves(attrs, rules[..n - 1], registry, s);
      var e := Expand(rules[n - 1], s);
      if p0.failure.None? && e.failure.None? {
        CleanAllAllNil(attrs, e.targets, rules[n - 1].cleaner, registry, s);
      }
    }
  }

  // ---------------------------------------------------------------- declaration order

  /** Adding a rule at the end adds one iteration of the outer loop. */
  lemma RunSnoc(attrs: map<string, Value>, rules: seq<Rule>, rule: Rule,
                registry: map<string, CleanerFn>, s: Schema)
    ensures Run(attrs, rules + [rule], registry, s) == Continue(Run(attrs, rules, registry, s), rule, registry, s)
  {
    assert (rules + [rule])[..|rules|] == rules;
  }

  /** The pass made of `p` followed by `q`. */
  function Then(p: Pass, q: Pass): Pass {
    Pass(q.attrs, p.rules + q.rules, p.writes + q.writes, q.failure)
  }

  lemma ContinueThen(p: Pass, q: Pass, rule: Rule, registry: map<string, CleanerFn>, s: Schema)
    ensures Continue(Then(p, q), rule, registry, s) == Then(p, Continue(q, rule, registry, s))
  {
    if q.failure.None? {
      var (stored, c) := ApplyRule(q.attrs, rule, registry, s);
      assert (p.writes + q.writes) + c.writes == p.writes + (q.writes + c.writes);
    }
    assert (p.rules + q.rules) + [rule] == p.rules + (q.rules + [rule]);
  }

  /** Running `r1 + r2` is running `r1` and then `r2` on what `r1` left:
      later rules receive the earlier rules' output. */
  lemma {:induction false} RunConcat(attrs: map<string, Value>, r1: seq<Rule>, r2: seq<Rule>,
                                     registry: map<string, CleanerFn>, s: Schema)
    requires Run(attrs, r1, registry, s).failure.None?
    ensures var p := Run(attrs, r1, registry, s);
            Run(attrs, r1 + r2, registry, s) == Then(p, Run(p.attrs, r2, registry, s))
    decreases |r2|
  {
    var p := Run(attrs, r1, registry, s);
    if r2 == [] {
      assert r1 + r2 == r1;
      assert p.rules + [] == p.rules && p.writes + [] == p.writes;
    } else {
      var n := |r2|;
      var front := r2[..n - 1];
      var last := r2[n - 1];
      assert r1 + r2 == (r1 + front) + [last];
      assert r2 == front + [last];
      calc {
        Run(attrs, r1 + r2, registry, s);
        { RunSnoc(attrs, r1 + front, last, registry, s); }
        Continue(Run(attrs, r1 + front, registry, s), last, registry, s);
        { RunConcat(attrs, r1, front, registry, s); }
        Continue(Then(p, Run(p.attrs, front, registry, s)), last, registry, s);
        { ContinueThen(p, Run(p.attrs, front, registry, s), last, registry, s); }
        Then(p, Continue(Run(p.attrs, front, registry, s), last, registry, s));
        { RunSnoc(p.attrs, front, last, registry, s); }
        Then(p, Run(p.attrs, r2, registry, s));
      }
    }
  }

  /** A single non-wildcard attribute whose cleaner resolves is set to the
      cleaner's result (which leaves it as it was when nothing changed). */
  lemma CleanSingle(attrs: map<string, Value>, x: string, c: Param, f: CleanerFn,
                    registry: map<string, CleanerFn>, s: Schema)
    requires x in attrs && attrs[x] != VNil
    requires Resolve(c, registry) == Callable(f)
    ensures var r := CleanAll(attrs, [x], c, registry, s);
            r.failure.None? && r.attrs == attrs[x := f(attrs[x])]
  {
    assert [x][..0] == [];
    var r := CleanOne(attrs, x, c, registry, s);
    assert ReadRaw(attrs, x, s) == Some(attrs[x]);
    if f(attrs[x]) == attrs[x] {
      assert attrs[x := f(attrs[x])] == attrs;
    }
  }

  /** No name is listed twice. */
  ghost predicate Distinct(xs: seq<string>) {
    forall i, j :: 0 <= i < j < |xs| ==> xs[i] != xs[j]
  }

  /** Every listed name can be read: it is an attribute, or unknown names
      read nil through `read_attribute_before_type_cast`. */
  ghost predicate Readable(attrs: map<string, Value>, targets: seq<string>, s: Schema) {
    forall i :: 0 <= i < |targets| ==> targets[i] in attrs || s.readsBeforeTypeCast
  }

  /** The value a rule with cleaner `f` leaves in attribute `y`. */
  function Cleaned(attrs: map<string, Value>, targets: seq<string>, f: CleanerFn, y: string): Value
    requires y in attrs
  {
    if y in targets && attrs[y] != VNil then f(attrs[y]) else attrs[y]
  }

  /** One readable attribute with a resolvable cleaner becomes the cleaner's
      result, unless its raw value is nil; nothing else changes. */
  lemma CleanOneApplies(attrs: map<string, Value>, x: string, c: Param, f: CleanerFn,
                        registry: map<string, CleanerFn>, s: Schema)
    requires Resolve(c, registry) == Callable(f)
    requires x in attrs || s.readsBeforeTypeCast
    ensures var q := CleanOne(attrs, x, c, registry, s);
            q.failure.None? &&
            q.attrs == (if x in attrs && attrs[x] != VNil then attrs[x := f(attrs[x])] else attrs)
  {
    if x in attrs && attrs[x] != VNil && f(attrs[x]) == attrs[x] {
      assert attrs[x := f(attrs[x])] == attrs;
    }
  }

  /** Cleaning one more attribute `x`, not cleaned before, extends `Cleaned` by `x`. */
  lemma CleanedStep(attrs: map<string, Value>, before: map<string, Value>, pre: seq<string>, x: string,
                    f: CleanerFn, after: map<string, Value>)
    requires before.Keys == attrs.Keys && forall y :: y in attrs ==> before[y] == Cleaned(attrs, pre, f, y)
    requires x !in pre
    requires after == (if x in before && before[x] != VNil then before[x := f(before[x])] else before)
    ensures after.Keys == attrs.Keys && forall y :: y in attrs ==> after[y] == Cleaned(attrs, pre + [x], f, y)
  {
    forall y | y in attrs
      ensures after[y] == Cleaned(attrs, pre + [x], f, y)
    {
      assert y in pre + [x] <==> y in pre || y == x;
    }
  }

  /** A rule over distinct readable attributes with a resolvable cleaner `f`
      raises nothing and sets every listed attribute whose raw value is not
      nil to `f` of that value; every other attribute keeps its value. */
  lemma {:induction false} CleanAllApplies(attrs: map<string, Value>, targets: seq<string>, c: Param, f: CleanerFn,
                                           registry: map<string, CleanerFn>, s: Schema)
    requires Resolve(c, registry) == Callable(f)
    requires Distinct(targets) && Readable(attrs, targets, s)
    ensures var r := CleanAll(attrs, targets, c, registry, s);
            r.failure.None? && r.attrs.Keys == attrs.Keys &&
            forall y :: y in attrs ==> r.attrs[y] == Cleaned(attrs, targets, f, y)
    decreases |targets|
  {
    if targets != [] {
      var n := |targets|;
      var pre := targets[..n - 1];
      var x := targets[n - 1];
      assert forall i :: 0 <= i < n - 1 ==> pre[i] == targets[i];
      CleanAllApplies(attrs, pre, c, f, registry, s);
      var p := CleanAll(attrs, pre, c, registry, s);
      assert x !in pre;
      CleanOneApplies(p.attrs, x, c, f, registry, s);
      var q := CleanOne(p.attrs, x, c, registry, s);
      assert CleanAll(attrs, targets, c, registry, s) == Step(q.attrs, p.writes + q.writes, q.failure);
      assert targets == pre + [x];
      CleanedStep(attrs, p.attrs, pre, x, f, q.attrs);
    }
  }

  /** The same for a whole rule whose attribute list expands: after the pass
      each distinct readable target holds `f` of its raw value unless that is
      nil, and all other attributes are as they were. */
  lemma RuleApplies(attrs: map<string, Value>, rule: Rule, f: CleanerFn,
                    registry: map<string, CleanerFn>, s: Schema)
    requires Expand(rule, s).failure.None?
    requires Resolve(rule.cleaner, registry) == Callable(f)
    requires Distinct(Expand(rule, s).targets) && Readable(attrs, Expand(rule, s).targets, s)
    ensures var p := Run(attrs, [rule], registry, s);
            p.failure.None? && p.attrs.Keys == attrs.Keys &&
            forall y :: y in attrs ==> p.attrs[y] == Cleaned(attrs, Expand(rule, s).targets, f, y)
  {
    RunSnoc(attrs, [], rule, registry, s);
    var e := Expand(rule, s);
    CleanAllApplies(attrs, e.targets, rule.cleaner, f, registry, s);
    assert ApplyRule(attrs, rule, registry, s).1 == CleanAll(attrs, e.targets, rule.cleaner, registry, s);
  }

  /** A single attribute whose raw value is nil is left as it is. */
  lemma CleanSingleNil(attrs: map<string, Value>, x: string, c: Param,
                       registry: map<string, CleanerFn>, s: Schema)
    requires x in attrs && attrs[x] == VNil
    ensures CleanAll(attrs, [x], c, registry, s) == Step(attrs, [], None)
  {
    assert [x][..0] == [];
    assert ReadRaw(attrs, x, s) == Some(VNil);
    assert CleanOne(attrs, x, c, registry, s) == Step(attrs, [], None);
  }

  /** One outer-loop step with a rule that names its attributes. */
  lemma ContinueListed(p: Pass, rule: Rule, registry: map<string, CleanerFn>, s: Schema)
    requires p.failure.None? && ALL !in rule.attributes
    ensures var q := CleanAll(p.attrs, rule.attributes, rule.cleaner, registry, s);
            Continue(p, rule, registry, s) == Pass(q.attrs, p.rules + [rule], p.writes + q.writes, q.failure)
  {
    assert ApplyRule(p.attrs, rule, registry, s).0 == rule;
  }

  /** Two rules on the same attribute: the second cleaner receives the
      first one's output, unless that output is nil, which the second rule
      then skips. */
  lemma LaterRuleSeesEarlierOutput(attrs: map<string, Value>, x: string, c1: Param, c2: Param,
                                   o1: Options, o2: Options, f: CleanerFn, g: CleanerFn,
                                   registry: map<string, CleanerFn>, s: Schema)
    requires x != ALL && x in attrs && attrs[x] != VNil
    requires Resolve(c1, registry) == Callable(f) && Resolve(c2, registry) == Callable(g)
    ensures var p := Run(attrs, [Rule(c1, [x], o1), Rule(c2, [x], o2)], registry, s);
            var v := f(attrs[x]);
            p.failure.None? && p.attrs == attrs[x := if v == VNil then VNil else g(v)]
  {
    var r1, r2 := Rule(c1, [x], o1), Rule(c2, [x], o2);
    RunSnoc(attrs, [], r1, registry, s);
    ContinueListed(Run(attrs, [], registry, s), r1, registry, s);
    CleanSingle(attrs, x, c1, f, registry, s);
    var a1 := attrs[x := f(attrs[x])];
    assert [] + [r1] == [r1];
    assert [r1] + [r2] == [r1, r2];
    RunSnoc(attrs, [r1], r2, registry, s);
    ContinueListed(Run(attrs, [r1], registry, s), r2, registry, s);
    if f(attrs[x]) == VNil {
      CleanSingleNil(a1, x, c2, registry, s);
    } else {
      CleanSingle(a1, x, c2, g, registry, s);
    }
  }

  // ---------------------------------------------------------------- errors

  /** Some target's raw value is not nil, or cannot be read at all. */
  ghost predicate MeetsNonNil(attrs: map<string, Value>, targets: seq<string>, s: Schema) {
    exists i :: 0 <= i < |targets| && ReadRaw(attrs, targets[i], s) != Some(VNil)
  }

  /** With a cleaner that cannot be resolved, one attribute is never
      written; reading a non-nil (or unreadable) value raises. */
  lemma CleanOneUnresolved(attrs: map<string, Value>, x: string, cleaner: Param,
                           registry: map<string, CleanerFn>, s: Schema)
    requires Resolve(cleaner, registry).Unresolved?
    ensures var q := CleanOne(attrs, x, cleaner, registry, s);
            q.attrs == attrs && q.writes == [] &&
            (q.failure.Some? <==> ReadRaw(attrs, x, s) != Some(VNil)) &&
            (q.failure.Some? && s.readsBeforeTypeCast ==> q.failure == Some(Resolve(cleaner, registry).failure))
  {
  }

  /** With a cleaner that cannot be resolved, the inner loop writes nothing
      and changes nothing. */
  lemma {:induction false} CleanAllUnresolvedInert(attrs: map<string, Value>, targets: seq<string>, cleaner: Param,
                                                   registry: map<string, CleanerFn>, s: Schema)
    requires Resolve(cleaner, registry).Unresolved?
    ensures var r := CleanAll(attrs, targets, cleaner, registry, s);
            r.attrs == attrs && r.writes == []
    decreases |targets|
  {
    if targets != [] {
      CleanAllUnresolvedInert(attrs, targets[..|targets| - 1], cleaner, registry, s);
      CleanOneUnresolved(attrs, targets[|targets| - 1], cleaner, registry, s);
    }
  }

  /** ... and it raises exactly when it meets a target whose raw value is
      not nil; with `read_attribute_before_type_cast` available the error is
      the resolution error. */
  lemma {:induction false} CleanAllUnresolved(attrs: map<string, Value>, targets: seq<string>, cleaner: Param,
                                              registry: map<string, CleanerFn>, s: Schema)
    requires Resolve(cleaner, registry).Unresolved?
    ensures var r := CleanAll(attrs, targets, cleaner, registry, s);
            r.attrs == attrs && r.writes == [] &&
            (r.failure.Some? <==> MeetsNonNil(attrs, targets, s)) &&
            (r.failure.Some? && s.readsBeforeTypeCast ==> r.failure == Some(Resolve(cleaner, registry).failure))
    decreases |targets|
  {
    CleanAllUnresolvedInert(attrs, targets, cleaner, registry, s);
    if targets != [] {
      var n := |targets|;
      var pre := targets[..n - 1];
      CleanAllUnresolved(attrs, pre, cleaner, registry, s);
      if CleanAll(attrs, pre, cleaner, registry, s).failure.Some? {
        var i :| 0 <= i < |pre| && ReadRaw(attrs, pre[i], s) != Some(VNil);
        assert targets[i] == pre[i];
      } else {
        CleanOneUnresolved(attrs, targets[n - 1], cleaner, registry, s);
        assert forall i :: 0 <= i < n - 1 ==> pre[i] == targets[i];
        assert MeetsNonNil(attrs, targets, s) <==> ReadRaw(attrs, targets[n - 1], s) != Some(VNil);
      }
    }
  }

  /** A rule whose cleaner cannot be resolved, over any attribute list, writes
      nothing and changes nothing; it raises exactly when one of its targets
      has a non-nil raw value. */
  lemma UnresolvedCleanerRaises(attrs: map<string, Value>, rule: Rule,
                                registry: map<string, CleanerFn>, s: Schema)
    requires Expand(rule, s).failure.None?
    requires Resolve(rule.cleaner, registry).Unresolved?
    ensures var p := Run(attrs, [rule], registry, s);
            p.attrs == attrs && p.writes == [] &&
            (p.failure.Some? <==> MeetsNonNil(attrs, Expand(rule, s).targets, s)) &&
            (p.failure.Some? && s.readsBeforeTypeCast ==> p.failure == Some(Resolve(rule.cleaner, registry).failure))
  {
    RunSnoc(attrs, [], rule, registry, s);
    var e := Expand(rule, s);
    CleanAllUnresolved(attrs, e.targets, rule.cleaner, registry, s);
    assert ApplyRule(attrs, rule, registry, s).1 == CleanAll(attrs, e.targets, rule.cleaner, registry, s);
  }

  /** An Array of cleaner names, such as `cleaner: [:upcase, :strip]`, is not
      a chain: `to_sym` fails on it, so the rule raises on the first non-nil
      value and writes nothing. */
  lemma ArrayOfCleanersRaises(attrs: map<string, Value>, ns: seq<string>, attributes: seq<string>,
                              params: Options, registry: map<string, CleanerFn>, s: Schema)
    requires Expand(Rule(Names(ns), attributes, params), s).failure.None?
    ensures var rule := Rule(Names(ns), attributes, params);
            var p := Run(attrs, [rule], registry, s);
            p.attrs == attrs && p.writes == [] &&
            (p.failure.Some? <==> MeetsNonNil(attrs, Expand(rule, s).targets, s)) &&
            (p.failure.Some? && s.readsBeforeTypeCast ==> p.failure == Some(NotACleaner))
  {
    UnresolvedCleanerRaises(attrs, Rule(Names(ns), attributes, params), registry, s);
  }

  /** A failing rule does not roll back what earlier rules wrote: after any
      earlier rules that succeed, a rule whose cleaner cannot be resolved and
      which meets a non-nil target raises, and the attributes and setter
      calls are exactly those the earlier rules left. */
  lemma EarlierWritesSurviveFailure(attrs: map<string, Value>, r1: seq<Rule>, bad: Rule,
                                    registry: map<string, CleanerFn>, s: Schema)
    requires Run(attrs, r1, registry, s).failure.None?
    requires Expand(bad, s).failure.None? && Resolve(bad.cleaner, registry).Unresolved?
    requires MeetsNonNil(Run(attrs, r1, registry, s).attrs, Expand(bad, s).targets, s)
    ensures var p := Run(attrs, r1 + [bad], registry, s);
            var p1 := Run(attrs, r1, registry, s);
            p.failure.Some? && p.attrs == p1.attrs && p.writes == p1.writes
  {
    var p1 := Run(attrs, r1, registry, s);
    RunConcat(attrs, r1, [bad], registry, s);
    UnresolvedCleanerRaises(p1.attrs, bad, registry, s);
    assert p1.writes + [] == p1.writes;
  }

  /** For instance: one rule cleans `x`, and the next one raises on another
      attribute; `x` keeps its cleaned value. */
  lemma CleanedThenRaised(attrs: map<string, Value>, x: string, c1: Param, f: CleanerFn,
                          bad: Rule, o1: Options, registry: map<string, CleanerFn>, s: Schema)
    requires x != ALL && x in attrs && attrs[x] != VNil
    requires Resolve(c1, registry) == Callable(f)
    requires |bad.attributes| == 1 && bad.attributes[0] != ALL && bad.attributes[0] != x
    requires bad.attributes[0] in attrs && attrs[bad.attributes[0]] != VNil
    requires Resolve(bad.cleaner, registry).Unresolved?
    ensures var p := Run(attrs, [Rule(c1, [x], o1), bad], registry, s);
            p.failure.Some? && p.attrs == attrs[x := f(attrs[x])]
  {
    var good := Rule(c1, [x], o1);
    RunSnoc(attrs, [], good, registry, s);
    assert [] + [good] == [good];
    CleanSingle(attrs, x, c1, f, registry, s);
    var a1 := attrs[x := f(attrs[x])];
    var y := bad.attributes[0];
    assert bad.attributes == [y];
    assert ReadRaw(a1, y, s) == Some(a1[y]);
    assert [good] + [bad] == [good, bad];
    EarlierWritesSurviveFailure(attrs, [good], bad, registry, s);
  }

  // ---------------------------------------------------------------- :all and :except

  /** `x` is listed in the rule's `:except` Array. */
  ghost predicate Excepted(rule: Rule, x: string) {
    EXCEPT in rule.params && rule.params[EXCEPT].Names? && x in rule.params[EXCEPT].names
  }

  ghost predicate IsSerialized(s: Schema, x: string) {
    s.serialized.Some? && x in s.serialized.value
  }

  ghost predicate IsEncryptedName(s: Schema, x: string) {
    s.encrypted.Some? && exists p :: p in s.encrypted.value && p.1 == x
  }

  ghost predicate IsClearName(s: Schema, x: string) {
    s.encrypted.Some? && exists p :: p in s.encrypted.value && p.0 == x
  }

  lemma {:induction false} RenameKeeps(attrs: seq<string>, pairs: seq<(string, string)>, x: string)
    requires x in attrs && forall p :: p in pairs ==> p.1 != x
    ensures x in Rename(attrs, pairs)
    decreases |pairs|
  {
    if pairs != [] {
      RenameKeeps(RenameOne(attrs, pairs[0]), pairs[1..], x);
    }
  }

  /** `xs - ys` keeps the order of `xs`, so the targets are visited in the
      host's attribute order. */
  lemma {:induction false} WithoutKeepsOrder(xs: seq<string>, ys: seq<string>)
    ensures Text.IsSubsequence(Without(xs, ys), xs)
    decreases |xs|
  {
    if xs != [] {
      WithoutKeepsOrder(xs[1..], ys);
    }
  }

  /** Encrypted column names are distinct, and none is also a clear name. */
  ghost predicate WellPaired(pairs: seq<(string, string)>) {
    (forall p, q :: p in pairs && q in pairs && p.1 == q.1 ==> p == q) &&
    (forall p, q :: p in pairs && q in pairs ==> p.0 != q.1)
  }

  /** A listed encrypted column is replaced by its clear name. */
  lemma {:induction false} RenameReplaces(attrs: seq<string>, pairs: seq<(string, string)>, c: string, e: string)
    requires WellPaired(pairs) && (c, e) in pairs && e in attrs
    ensures c in Rename(attrs, pairs) && e !in Rename(attrs, pairs)
    decreases |pairs|
  {
    var p0 := pairs[0];
    var rest := pairs[1..];
    var a1 := RenameOne(attrs, p0);
    assert forall p :: p in rest ==> p in pairs;
    if p0 == (c, e) {
      assert c != e;
      assert c in a1 && e !in a1;
      RenameKeeps(a1, rest, c);
    } else {
      assert (c, e) in rest;
      assert p0.1 != e;
      assert e in a1;
      RenameReplaces(a1, rest, c, e);
    }
  }

  /** A name the encrypted-attribute pass adds is the clear name of a pair
      whose encrypted name was listed. */
  lemma {:induction false} RenameOnlyListed(attrs: seq<string>, pairs: seq<(string, string)>, x: string)
    requires WellPaired(pairs) && x in Rename(attrs, pairs) && x !in attrs
    ensures exists p :: p in pairs && p.0 == x && p.1 in attrs
    decreases |pairs|
  {
    var p0 := pairs[0];
    var rest := pairs[1..];
    var a1 := RenameOne(attrs, p0);
    assert forall p :: p in rest ==> p in pairs;
    if x in a1 {
      assert p0.0 == x && p0.1 in attrs;
    } else {
      RenameOnlyListed(a1, rest, x);
      var p :| p in rest && p.0 == x && p.1 in a1;
      assert p.1 != p0.0;
      assert p.1 in attrs;
    }
  }

  /** `:all` with a well-formed `:except`: a name is cleansed only if it is
      one of the host's attributes that is neither excepted nor serialized,
      or the clear name of an encrypted attribute; and every host attribute
      that is neither excepted, serialized nor an encrypted column is. */
  lemma WildcardTargets(rule: Rule, s: Schema, x: string)
    requires IsWildcard(rule, s)
    requires EXCEPT !in rule.params || rule.params[EXCEPT].Falsy? || rule.params[EXCEPT].Names?
    ensures Expand(rule, s).failure.None?
    ensures x in Expand(rule, s).targets ==>
              (x in s.attributeNames && !Excepted(rule, x) && !IsSerialized(s, x)) || IsClearName(s, x)
    ensures x in s.attributeNames && !Excepted(rule, x) && !IsSerialized(s, x) && !IsEncryptedName(s, x) ==>
              x in Expand(rule, s).targets
    ensures s.encrypted.Some? && WellPaired(s.encrypted.value) && x in Expand(rule, s).targets &&
            !(x in s.attributeNames && !Excepted(rule, x) && !IsSerialized(s, x)) ==>
              exists p :: p in s.encrypted.value && p.0 == x &&
                p.1 in s.attributeNames && !Excepted(rule, p.1) && !IsSerialized(s, p.1)
  {
    var except := if EXCEPT in rule.params then rule.params[EXCEPT] else Falsy;
    var listed := if except.Names? then Without(s.attributeNames, except.names) else s.attributeNames;
    var kept := if s.serialized.Some? then Without(listed, s.serialized.value) else listed;
    if x in s.attributeNames && !Excepted(rule, x) && !IsSerialized(s, x) && !IsEncryptedName(s, x) {
      assert x in kept;
      if s.encrypted.Some? {
        RenameKeeps(kept, s.encrypted.value, x);
      }
    }
    if s.encrypted.Some? && WellPaired(s.encrypted.value) && x in Expand(rule, s).targets && x !in kept {
      RenameOnlyListed(kept, s.encrypted.value, x);
    }
  }

  /** Under `:all`, a listed encrypted column that is neither excepted nor
      serialized is cleansed under its clear name and not under its own. */
  lemma WildcardRenamesEncrypted(rule: Rule, s: Schema, c: string, e: string)
    requires IsWildcard(rule, s)
    requires EXCEPT !in rule.params || rule.params[EXCEPT].Falsy? || rule.params[EXCEPT].Names?
    requires s.encrypted.Some? && WellPaired(s.encrypted.value) && (c, e) in s.encrypted.value
    requires e in s.attributeNames && !Excepted(rule, e) && !IsSerialized(s, e)
    ensures c in Expand(rule, s).targets && e !in Expand(rule, s).targets
  {
    var except := if EXCEPT in rule.params then rule.params[EXCEPT] else Falsy;
    var listed := if except.Names? then Without(s.attributeNames, except.names) else s.attributeNames;
    var kept := if s.serialized.Some? then Without(listed, s.serialized.value) else listed;
    assert e in kept;
    RenameReplaces(kept, s.encrypted.value, c, e);
  }

  /** In particular an excepted name that is no encrypted attribute's clear
      name is left alone by the wildcard rule. */
  lemma ExceptedIsNotTargeted(rule: Rule, s: Schema, x: string)
    requires IsWildcard(rule, s) && Excepted(rule, x) && !IsClearName(s, x)
    ensures x !in Expand(rule, s).targets
  {
    WildcardTargets(rule, s, x);
  }

  /** Excepting an encrypted column under `:all` also leaves its clear name
      uncleansed, when that name is no host attribute of its own and no other
      pair brings it in. */
  lemma ExceptedEncryptedNotTargeted(rule: Rule, s: Schema, c: string, e: string)
    requires IsWildcard(rule, s)
    requires EXCEPT !in rule.params || rule.params[EXCEPT].Falsy? || rule.params[EXCEPT].Names?
    requires s.encrypted.Some? && WellPaired(s.encrypted.value) && (c, e) in s.encrypted.value
    requires Excepted(rule, e) && c !in s.attributeNames
    requires forall p :: p in s.encrypted.value && p.0 == c ==> p.1 == e
    ensures c !in Expand(rule, s).targets && e !in Expand(rule, s).targets
  {
    WildcardTargets(rule, s, c);
    WildcardTargets(rule, s, e);
  }

  lemma {:induction false} RunStoresExpandedParams(attrs: map<string, Value>, rules: seq<Rule>,
                                                   registry: map<string, CleanerFn>, s: Schema)
    requires Run(attrs, rules, registry, s).failure.None?
    ensures forall k :: 0 <= k < |rules| ==>
              Run(attrs, rules, registry, s).rules[k] == rules[k].(params := Expand(rules[k], s).params)
    decreases |rules|
  {
    if rules != [] {
      var n := |rules|;
      var p0 := Run(attrs, rules[..n - 1], registry, s);
      assert p0.failure.None?;
      RunStoresExpandedParams(attrs, rules[..n - 1], registry, s);
      var stored := ApplyRule(p0.attrs, rules[n - 1], registry, s).0;
      assert stored == rules[n - 1].(params := Expand(rules[n - 1], s).params);
      var p := Run(attrs, rules, registry, s);
      assert p.rules == p0.rules + [stored];
      forall k | 0 <= k < n
        ensures p.rules[k] == rules[k].(params := Expand(rules[k], s).params)
      {
        if k < n - 1 {
          assert rules[..n - 1][k] == rules[k];
        }
      }
    }
  }

  /** `:except` is deleted from the stored params the first time `:all` is
      expanded, so on every later pass over the same class the wildcard rule
      covers all the host's attributes again (minus serialized ones, with
      encrypted ones renamed). */
  lemma ExceptForgottenAfterFirstPass(attrs: map<string, Value>, rules: seq<Rule>,
                                      registry: map<string, CleanerFn>, s: Schema, k: nat)
    requires Run(attrs, rules, registry, s).failure.None?
    requires k < |rules| && IsWildcard(rules[k], s)
    ensures var stored := Run(attrs, rules, registry, s).rules[k];
            EXCEPT !in stored.params &&
            Expand(stored, s) == Expansion(HostFilter(s.attributeNames, s), stored.params, None)
  {
    RunStoresExpandedParams(attrs, rules, registry, s);
  }
}

=== FILE: registry.dfy ===
/** The process-wide cleaner registry of lib/data_cleansing/data_cleansing.rb. */
module Registry {
  import opened Values

  /** The entry stored under `name`, if any; `nil` is modelled as None. */
  function Lookup(table: map<string, CleanerFn>, name: Name): (r: Option<CleanerFn>)
    ensures r.Some? <==> name.ToSym() in table
    ensures r.Some? ==> r.value == table[name.ToSym()]
  {
    var key := name.ToSym();
    if key in table then Some(table[key]) else None
  }

  /** The table after `register_cleaner(name, &block)`: the block is stored
      under `name.to_sym`, replacing any earlier entry; without a block the
      table is left as it was. */
  function Registered(table: map<string, CleanerFn>, name: Name, block: Option<CleanerFn>): (r: map<string, CleanerFn>)
    ensures block.None? ==> r == table
    ensures block.Some? ==> r.Keys == table.Keys + {name.ToSym()}
  {
    match block
    case None => table
    case Some(f) => table[name.ToSym() := f]
  }

  /** `@@global_cleaners`: one shared hash from symbol to block. */
  class CleanerRegistry {
    var cleaners: map<string, CleanerFn>

    constructor ()
      ensures cleaners == map[]
    {
      cleaners := map[];
    }

    /** `DataCleansing.register_cleaner(name, &block)`. */
    method RegisterCleaner(name: Name, block: Option<CleanerFn>)
      modifies this
      ensures cleaners == Registered(old(cleaners), name, block)
      ensures block.Some? ==> Cleaner(name) == block
      ensures forall other: Name :: other.ToSym() != name.ToSym() ==> Cleaner(other) == old(Cleaner(other))
    {
      if block.Some? {
        cleaners := cleaners[name.ToSym() := block.value];
      }
    }

    /** `DataCleansing.cleaner(name)`: a plain lookup under `name.to_sym`. */
    function Cleaner(name: Name): (r: Option<CleanerFn>)
      reads this
      ensures r == Lookup(cleaners, name)
    {
      Lookup(cleaners, name)
    }
  }

  /** After registering a block under a name, looking that name up gives the block. */
  lemma LookupAfterRegister(table: map<string, CleanerFn>, name: Name, f: CleanerFn)
    ensures Lookup(Registered(table, name, Some(f)), name) == Some(f)
  {
  }

  /** Registering twice under one name keeps only the later block. */
  lemma LastWriterWins(table: map<string, CleanerFn>, name: Name, f: CleanerFn, g: CleanerFn)
    ensures Registered(Registered(table, name, Some(f)), name, Some(g)) == Registered(table, name, Some(g))
  {
  }

  /** Registering one name leaves the entry of every other name as it was. */
  lemma RegisterIsLocal(table: map<string, CleanerFn>, name: Name, block: Option<CleanerFn>, other: Name)
    requires other.ToSym() != name.ToSym()
    ensures Lookup(Registered(table, name, block), other) == Lookup(table, other)
  {
  }

  /** The Symbol and String spellings of a name reach the same entry. */
  lemma SymbolAndStringAgree(table: map<string, CleanerFn>, id: string)
    ensures Lookup(table, Sym(id)) == Lookup(table, Str(id))
    ensures Lookup(Registered(table, Str(id), None), Sym(id)) == Lookup(table, Sym(id))
  {
  }
}

=== FILE: text.dfy ===
/** Character classes and character filters shared by the transforms. */
module Text {

  /** Ruby's `\s` on ASCII: space, tab, line feed, vertical tab, form feed, carriage return. */
  predicate IsSpace(c: char) {
    c == ' ' || c == '\t' || c == '\n' || c == '\U{B}' || c == '\U{C}' || c == '\r'
  }

  /** `\w` on ASCII: letters, digits and underscore. */
  predicate IsWordChar(c: char) {
    ('a' <= c <= 'z') || ('A' <= c <= 'Z') || ('0' <= c <= '9') || c == '_'
  }

  /** `[[:print:]]` on ASCII: space through tilde. */
  predicate IsPrintable(c: char) {
    ' ' <= c <= '~'
  }

  predicate IsDigit(c: char) {
    '0' <= c <= '9'
  }

  predicate IsLower(c: char) {
    'a' <= c <= 'z'
  }

  predicate IsUpper(c: char) {
    'A' <= c <= 'Z'
  }

  /** `gsub(/[^p]/, '')`: the characters of `s` satisfying `p`, in order. */
  function Keep(s: string, p: char -> bool): (r: string)
    ensures |r| <= |s|
    ensures forall i :: 0 <= i < |r| ==> p(r[i])
  {
    if s == [] then []
    else if p(s[0]) then [s[0]] + Keep(s[1..], p)
    else Keep(s[1..], p)
  }

  /** `Keep` loses none of the characters it keeps: each one occurs in the
      result exactly as often as in the input, and nothing else occurs. */
  lemma {:induction false} KeepCounts(s: string, p: char -> bool)
    ensures forall c :: p(c) ==> multiset(Keep(s, p))[c] == multiset(s)[c]
    ensures forall c :: !p(c) ==> multiset(Keep(s, p))[c] == 0
  {
    if s != [] {
      KeepCounts(s[1..], p);
      assert s == [s[0]] + s[1..];
      assert multiset(s) == multiset([s[0]]) + multiset(s[1..]);
    }
  }

  /** `sub` is obtained from `s` by deleting elements, the rest kept in order. */
  predicate IsSubsequence<T(==)>(sub: seq<T>, s: seq<T>)
    decreases |s|
  {
    if sub == [] then true
    else if s == [] then false
    else if sub[0] == s[0] then IsSubsequence(sub[1..], s[1..])
    else IsSubsequence(sub, s[1..])
  }

  /** What `Keep` returns is a subsequence of its input. */
  lemma {:induction false} KeepIsSubsequence(s: string, p: char -> bool)
    ensures IsSubsequence(Keep(s, p), s)
  {
    if s != [] {
      KeepIsSubsequence(s[1..], p);
    }
  }

  /** A string whose every character satisfies `p` passes through `Keep` unchanged. */
  lemma {:induction false} KeepAllKept(s: string, p: char -> bool)
    requires forall i :: 0 <= i < |s| ==> p(s[i])
    ensures Keep(s, p) == s
  {
    if s != [] {
      KeepAllKept(s[1..], p);
    }
  }

  /** Filtering twice by the same class is filtering once. */
  lemma KeepIdempotent(s: string, p: char -> bool)
    ensures Keep(Keep(s, p), p) == Keep(s, p)
  {
    KeepAllKept(Keep(s, p), p);
  }

  /** `Keep` commutes with concatenation. */
  lemma {:induction false} KeepAppend(s: string, t: string, p: char -> bool)
    ensures Keep(s + t, p) == Keep(s, p) + Keep(t, p)
  {
    if s != [] {
      var u := s + t;
      assert u[0] == s[0] && u[1..] == s[1..] + t;
      KeepAppend(s[1..], t, p);
      assert Keep(u, p) == (if p(s[0]) then [s[0]] else []) + Keep(u[1..], p);
      assert Keep(s, p) == (if p(s[0]) then [s[0]] else []) + Keep(s[1..], p);
    } else {
      assert s + t == t;
    }
  }
}

=== FILE: values.dfy ===
/** Values that flow through the cleansing engine. */
module Values {

  datatype Option<+T> = None | Some(value: T) {
    /** The wrapped value, or `default` for None. */
    function GetOr(default: T): T {
      match this
      case Some(v) => v
      case None => default
    }
  }

  /** An attribute value as the engine sees it: Ruby `nil`, a String, an
      Integer, or any other object (told apart by an identity number). */
  datatype Value = VNil | VStr(s: string) | VInt(i: int) | VOther(id: nat)

  /** A cleaner: a block or transform taking a value to its cleansed value. */
  type CleanerFn = Value -> Value

  /** A name given either as a Ruby Symbol or as a String. */
  datatype Name = Sym(id: string) | Str(text: string) {
    /** `to_sym`: both spellings of a name denote the same symbol. */
    function ToSym(): string {
      match this
      case Sym(id) => id
      case Str(text) => text
    }
  }
}
